=== FILE: README.md ===
# WeCom group-chat automation: a Dafny model

The system automates an enterprise WeChat (WeCom) admin console. It has three
parts:

- **Control server.** It starts one automation task at a time on request,
  stops it on request, and keeps a bounded log that the web page polls.
- **Coordinator.** It resolves the item limit and waits for a QR-code login.
  Then it walks the group list page by page. For each row it spawns a worker
  and tallies the workers' exit codes until the limit of successful workers
  is reached.
- **Worker.** It opens one group's edit page and hovers over every group
  entry. It picks the last card whose title mentions "HK" or "DD" and derives
  a new group name and the owner's name from it. It clears the existing
  entries, then confirms and saves the form through chains of fallback
  selectors. Its exit code tells the coordinator whether the edit page was
  reached.

Nothing here drives a browser or a process. Whatever the page, the child
process or the file system would report is an input value: the URL after a
navigation, the cards a hover revealed, how many delete buttons a query
found, how a worker exited. The model is the logic that decides what to do
with those reports. JavaScript's own string operations are written out: `trim`,
`includes`, `indexOf`, `parseInt` without radix, `toString` of a non-negative
integer, and truthiness.

Modules:

- `JsText` (js_text.dfy): the JavaScript string and number primitives.
- `GroupTitle` (group_title.dfy): `processGroupInfo`.
- `Element` (element.dfy): the clickability check and the fallback chains of
  the confirm and save steps.
- `Worker` (worker.dfy): the candidate selection, the delete loop and the
  worker's exit code.
- `Login` (login.dfy): the coordinator's login wait loop.
- `Coordinator` (coordinator.dfy): the limit, the page loop and the tally.
- `ControlServer` (control_server.dfy): the server's run state and log buffer.

## Model

| member | source | states |
|---|---|---|
| JsText.Trim | src/worker.js:917 | `trim()` keeps an infix of the input: only whitespace is cut on either side, the result neither starts nor ends with whitespace, and it is empty exactly when the input is all whitespace |
| JsText.TrimIdempotent | src/worker.js:917 | trimming an already trimmed text changes nothing |
| JsText.TrimOfPadded | server.js:129-141 | text that has no whitespace at its ends and is padded with whitespace trims back to itself |
| JsText.IndexOf | src/worker.js:914 | `indexOf` finds the first occurrence; it returns -1 (None) exactly when the pattern does not occur |
| JsText.NatToDecimal | src/worker.js:893-896 | `toString` of a non-negative integer is a canonical numeral (no superfluous leading zero) whose value is that integer |
| JsText.DecimalRoundTrip | src/worker.js:881-896 | rendering the value of a canonical numeral gives the numeral back |
| JsText.ParseInt | src/main.js:422 | `parseInt` is NaN exactly when no digit follows the leading whitespace, the sign and any `0x` prefix |
| JsText.ParseIntDigits | src/main.js:422 | a run of decimal digits followed by a non-digit parses to the run's value |
| JsText.ParseIntNegativeDigits | src/main.js:422 | the same run after a minus sign parses to the negated value |
| JsText.ParseIntSkipsWhitespace | src/main.js:422 | leading whitespace never changes the result of `parseInt` |
| JsText.ParseIntPlusSign | src/main.js:422 | a plus sign before an unsigned numeral never changes the result |
| JsText.ParseIntHex | src/main.js:422 | after `0x` or `0X`, the longest run of hexadecimal digits is read as a base-16 number, each digit weighted by its place |
| GroupTitle.DigitRuns | src/worker.js:873 | the matches of `/\d+/g`: every maximal digit run of the title appears, each is such a run, and they come left to right without overlap |
| GroupTitle.FindLargest | src/worker.js:877-890 | the loop's maximum is at least every match's value; it picks a match only if that value is positive, and then the first match with that value |
| GroupTitle.RunsFoundIffDigit | src/worker.js:873-875 | there is a match exactly when the title holds an ASCII digit |
| GroupTitle.TitleWithoutDigits | src/worker.js:899-902 | a title without digits gets "1群" appended |
| GroupTitle.TitleWithOnlyZeros | src/worker.js:877-892 | a title whose digit runs all read as 0 is returned unchanged |
| GroupTitle.ChosenRunIsFirstLargest | src/worker.js:880-890 | the match the loop keeps is a digit run of positive value that no run exceeds and no earlier run reaches |
| GroupTitle.TitleIncrementsFirstLargest | src/worker.js:892-897 | the new name is the title with its first largest run replaced by that value plus one; the text before and after the run is kept |
| GroupTitle.FirstLargestRunExists | src/worker.js:880-892 | when some run reads as a positive number, a first largest run exists, so the title is rewritten |
| GroupTitle.OwnerWithoutLabel | src/worker.js:912-921 | without "群主：" in the admin info the owner is the empty string |
| GroupTitle.OwnerAfterFirstLabel | src/worker.js:912-918 | with the label, the owner is the trimmed text after its first occurrence |
| GroupTitle.OwnerIsTrimmed | src/worker.js:917 | the owner never starts or ends with whitespace |
| GroupTitle.ProcessGroupInfo | src/worker.js:868-927 | the owner handed on with the new name never starts or ends with whitespace |
| Element.RunChain | src/worker.js:570-587 | a fallback chain clicks the first alternative that is found and clicked, after passing over the ones before it; it is exhausted exactly when every alternative is passed over; it raises at the first alternative that neither wins nor is passed over |
| Element.ConfirmChainUsesOnlyFirst | src/worker.js:563-588 | the second confirm alternative uses `:contains`, so its lookup raises: the chain clicks the first alternative exactly when the page shows it and the click goes through, and never clicks a later one |
| Element.ConfirmGroup | src/worker.js:474-591 | the dialog is submitted only when the name and the owner are both non-blank. The exact-attribute button is used natively, or by script when the native click fails, only if it is clickable. The alternatives are tried only when that button is absent: the first one is used exactly when it is found and clicked, and no other one ever is. A button that is present but not clickable stops the step |
| Element.SaveChainNeverExhausted | src/worker.js:715-743 | the last save alternative uses `:contains`, so its lookup raises: the chain never ends by passing over every alternative |
| Element.SaveForm | src/worker.js:653-770 | the save button is clicked natively exactly when it is present, clickable and the click goes through, and by script exactly when instead the native click fails and the script click goes through. The first CSS alternative that is found and clicked, after the earlier ones were passed over, is the one used; a backup wins only among the four CSS alternatives, and only after every earlier one was passed over. The scan for the "保存" text is used exactly when the body raised and that scan finds and clicks an anchor. When the save button is absent and all four CSS alternatives are passed over, the text scan decides the outcome |
| Worker.ScanCards | src/worker.js:784-857 | the loop sees a valid card exactly when some entry's card title is non-empty and mentions "HK" or "DD" |
| Worker.ScanCardsKeepsLastMatch | src/worker.js:837-842 | the title and admin info kept are those of the last matching entry |
| Worker.SelectCandidate | src/worker.js:774-865 | no entries gives the '' result; entries without a match give the null result; otherwise the result is the last matching card |
| Worker.DeleteLoop | src/worker.js:607-650 | the loop goes on only while a button is found, clicked and seen to go away; a click counts even when its removal is not seen; the clicks are the passes that went on plus the last pass's own click |
| Worker.DeleteLoopBounded | src/worker.js:613-645 | on a page where each removal leaves one button fewer, the clicks never exceed the buttons at the start, and the loop ends within one pass more than that |
| Worker.WorkerMain | src/worker.js:1041-1149 | the exit code is 0 or 1. It is 0 exactly when setup succeeded, the edit link is not blank, the navigation went through and the landing URL does not mention "login". A rewritten group comes from the last matching card |
| Worker.BlankEditLinkFails | src/worker.js:1105-1133 | an empty or whitespace-only edit link always exits with 1 |
| Worker.NoMatchStillSucceeds | src/worker.js:1007-1009 | a worker that finds no "HK"/"DD" card still exits with 0 once the edit page opened |
| Login.LoginStep | src/main.js:484-568 | one pass logs in exactly when the workbench URL is seen, before or (after a failed reload) after the error. Otherwise the refresh count grows by 0, 1 or 2 as the pass's weight says, and reloads are issued only for counted refreshes below the limit |
| Login.WaitLoop | src/main.js:480-573 | the count never drops. A login is reported at the first pass that sees the workbench. Giving up happens with a count of 10 or 11, after passes none of which saw the workbench; waiting on means no pass saw it and the count is still below 10. The reloads issued never exceed the refreshes counted below the limit |
| Login.RefreshCountIsWeightSum | src/main.js:506-567 | giving up happens at the first pass that brings the weight sum to the limit: the count is the sum of the weights of the passes made, and it was below the limit after each earlier pass |
| Login.WaitingCountIsWeightSum | src/main.js:506-567 | while the loop waits on, the count is the sum of the weights of all the passes |
| Login.LoginBeforeLimit | src/main.js:480-568 | a login is reported only while the loop still runs: the count was below 10 before every pass up to and including the one that saw the workbench |
| Login.NavigationsNeverGiveUp | src/main.js:494-512 | navigations that do not reach the workbench never use up the refresh attempts |
| Login.FailingReloadsGiveUpAfterFive | src/main.js:528-567 | five timeouts on the login page whose reloads all fail exhaust the ten attempts with nine reloads issued |
| Login.RefreshCountCanReachEleven | src/main.js:530-556 | a failing reload at count 9 leaves the counter at 11 |
| Coordinator.ResolveMaxItems | src/main.js:422 | the limit is never 0: the environment value if it parses to a non-zero number, else the argument if it does, else -1 |
| Coordinator.MaxItemsFromEnvironment | src/main.js:422 | a non-zero decimal numeral in `MAX_ITEMS` (possibly after whitespace and followed by other text) sets the limit to its value |
| Coordinator.ZeroMaxItemsFallsThrough | src/main.js:422 | `MAX_ITEMS=0` behaves as if it were unset |
| Coordinator.NoMaxItemsIsUnlimited | src/main.js:422 | with neither value set there is no limit |
| Coordinator.EffectiveMaxItems | src/main.js:245-255 | whether a search ran never changes the limit |
| Coordinator.SearchApplied | src/main.js:191-243 | a search runs exactly when the keyword is not blank, the search box is found and typing the keyword raises nothing |
| Coordinator.TargetUrl | src/main.js:308 | an empty or missing `TARGET_URL` falls back to the group-chat page; any other value is used as given |
| Coordinator.SuccessesExtremes | src/main.js:360-366 | the tally equals the number of workers exactly when all succeeded, and is 0 exactly when none did |
| Coordinator.Tally | src/main.js:356-366 | the loop counts the successful workers, and every settled result is a success or a failure |
| Coordinator.WorkerSuccessMeansPageOpened | src/main.js:333-339 | a worker counts as a success exactly when it opened its edit page |
| Coordinator.ItemsToProcess | src/main.js:280-284 | a page spawns all its rows, or just enough to reach the limit, never more than the limit allows, and at least one |
| Coordinator.DescribeRows | src/main.js:292-311 | task `i` carries its row index, the page number, the keyword, the target URL and that row's edit link (empty when missing) |
| Coordinator.RowSuccessesIsTally | src/main.js:353-368 | counting successes along the rows agrees with tallying their settled results |
| Coordinator.ProcessPage | src/main.js:270-370 | a page spawns between one worker and all its rows, and reaches the limit when it spawns fewer; its successes and failures add up to the workers spawned |
| Coordinator.PagePass | src/main.js:264-399 | a pass stops on an empty page, on reaching the limit, or on a missing or disabled next-page control. It turns the page only below the limit with an enabled control, and the stop is for the limit exactly when the total is no longer below it |
| Coordinator.ListLoop | src/main.js:264-400 | the loop reports at most one page per page observed |
| Coordinator.RunTotal | src/main.js:368 | the run's total is the sum of the pages' successes |
| Coordinator.RunEndsWithHalt | src/main.js:264-399 | the run ends with the first pass that stops, and takes that pass's stop reason and total |
| Coordinator.ReportAt | src/main.js:264-374 | report `i` is page `i + 1` processed from the i-th page observed, below the limit and with rows |
| Coordinator.TurnedOnlyWhenEnabled | src/main.js:378-391 | a report is followed by another only when its page had an enabled next-page control |
| Coordinator.ReportsLinked | src/main.js:368 | each page starts from the successes of all pages before it |
| Coordinator.ProcessList | src/main.js:183-411 | `processListData` reports as its total the successes of its pages |
| Coordinator.SuccessesWithinLimit | src/main.js:264-368 | with a limit, the successful workers never exceed it |
| Coordinator.NoPageWithoutRoom | src/main.js:264 | a limit of 0 or one below -1 lets no page start |
| Coordinator.UnlimitedTakesWholePages | src/main.js:280-284 | without a limit, every row of every page visited gets a worker |
| Coordinator.ThreeOfFiveWhenAllSucceed | src/main.js:280-373 | with a limit of 3 and five rows that all succeed, three workers run and the loop stops at the limit |
| Coordinator.FailuresKeepPaging | src/main.js:356-391 | with a limit of 3, a page of failing workers is followed by the next page, which spawns three more |
| Coordinator.Automation | src/main.js:416-618 | the list is processed exactly when the login succeeded and the navigations and session capture after it went through. It is processed with the resolved limit whether or not the search ran; the search ran exactly when the list was processed and the keyword was not blank, the box was found and typing raised nothing. The successes stay within a positive limit |
| ControlServer.AddLog | server.js:34-43 | the buffer gains the new entry as its newest, holds at most 100 entries, and is the newest 100 of the old entries plus the new one |
| ControlServer.AddLogsKeepsNewest | server.js:34-43 | however many entries are added, the buffer holds the newest 100 of all of them |
| ControlServer.Status | server.js:82-89 | `/api/status` reports the running flag and the newest 20 entries in order (all of them when there are fewer) |
| ControlServer.StatusShowsNewest | server.js:84 | the newest entry of the buffer is the newest entry shown |
| ControlServer.Start | server.js:95-156 | a running task refuses a start first, then a missing or empty keyword refuses it, and neither refusal logs anything. Otherwise the child is launched with the keyword and the `maxItems` (default -1), the server runs with that child, a failed `.env` write is logged as a warning, and the start is logged last |
| ControlServer.Stop | server.js:158-176 | a stop is refused when nothing runs. Otherwise it logs the kill, or its failure, and leaves the server marked as running |
| ControlServer.ExitCodeText | server.js:146 | the exit code is rendered as "null" for a signal, as its canonical decimal numeral when non-negative, and as "-" followed by the numeral of its magnitude when negative |
| ControlServer.OnClose | server.js:143-147 | the child's close makes the server idle and logs one entry, a success exactly when the exit code is 0; any other code, negative ones included, is logged as an error |
| ControlServer.SpawnFailureCloseLogged | server.js:143-147 | the close that follows a failed spawn, with code -2, logs "任务完成，退出代码: -2" as an error |
| ControlServer.OnError | server.js:149-153 | the child's error makes the server idle and logs it as an error |
| ControlServer.OnOutput | server.js:129-141 | output is logged trimmed, as info from stdout and as an error from stderr, and whitespace-only output is dropped |
| ControlServer.Handle | server.js:95-176 | every handler keeps the buffer within 100 entries, keeps the server running exactly while it holds a child, and leaves the buffer as the newest 100 of the old entries and those it emitted |
| ControlServer.RunKeepsInvariant | server.js:95-176 | that invariant holds after any sequence of requests and child events |
| ControlServer.RunKeepsNewestLogs | server.js:34-43 | after any sequence of events the buffer is the newest 100 of everything logged |
| ControlServer.NoSecondTask | server.js:96-98 | a second start is refused while the first task runs |
| ControlServer.StopThenClose | server.js:143-176 | after a stop the automation task still counts as running, and a new start is refused, until the child's close event |
| ControlServer.OnSignal | server.js:201-215 | SIGINT and SIGTERM log their warning, signal the child exactly when there is one, and exit with 0 |

## Left out

- `validateElement` (src/worker.js:122-145) is defined but never called, so it is not modelled. Its in-page test is the `Element.Clickable` predicate that the confirm and save steps use.
- Browser automation, delays, timeouts and timestamps. Every `page.$`, hover, click, navigation and wait is an input value, because the page cannot be modelled.
- Process spawning and concurrency. Workers run at the same time in the source; the model keeps only each worker's settled result, because `Promise.allSettled` makes the order irrelevant to the tally.
- The clipboard, screenshots, the session hand-over (`authData`, cookies, localStorage), the `.env` parsing by dotenv and the Express wiring. They are I/O with no decision in them.
- The order of steps in `performAddOperations` and `executeGroupCreationSteps` is not modelled. Only the confirm (`Element.ConfirmGroup`) and save (`Element.SaveForm`) decisions inside them are, because the rest is a fixed sequence of clicks.
- The web page (public/script.js), install-chrome.js, `/api/logs` (it returns the buffer unchanged), `/health`, and the start-up log lines are not part of this model.
- The `.env` text is built by the model, but the environment variable assignment and the file write are not; their failure is an input.
- Coordinator.ProcessList: an exception that ends `processListData` early through its `catch` (src/main.js:411-413) is not modelled. That covers a failure of the row query, of reading an edit link (src/main.js:299), of spawning a worker, of the next-page lookup (src/main.js:374), of its disabled check (src/main.js:377) and of its click (src/main.js:382). The model's pages never raise, so it does not show a run cut short at those calls. The search step's page effects are not modelled either; only whether it ran is (`Coordinator.SearchApplied`).
- Worker.DeleteLoop: an exception from the button query itself, which escapes the loop, is not modelled.
- Login.WaitLoop: the loop runs over a finite list of passes, so `StillWaiting` stands for "more passes would follow". Likewise `OutOfObservations` in the page loop means the list of pages ran out.
- Numbers are unbounded integers. JavaScript numbers lose precision above 2^53, so a title holding a longer digit run is not modelled exactly.
- Strings are sequences of code points, not UTF-16 units; `trim` uses the JavaScript whitespace set within that reading.
- Request values that are not strings (a numeric or boolean `searchKeyword`) are not modelled; the keyword is absent, or a string.
- The race where a child's `error` event is followed by its `close` event is modelled only as two separate events, each handled on its own.

## Behaviour of the code worth knowing

- A worker that finds no "HK"/"DD" card exits with 0 and counts as a success. The verdict of `processEditPageDirectly` is dropped at src/worker.js:1128 (`Worker.NoMatchStillSucceeds`).
- The limit counts successful workers, not rows processed (src/main.js:356-368). With a limit of 3 and five rows, the run stops after three workers only if all three succeed. Failed workers let the loop turn the page and spawn more (`Coordinator.FailuresKeepPaging`).
- A stop request kills the child but does not clear the running flag (server.js:158-176). The flag stays set until the child's close or error event (`ControlServer.StopThenClose`).
- Two fallback selectors use the jQuery-only `:contains(...)` (src/worker.js:565 and 720). The browser's selector engine rejects it, so those lookups always raise. The model fixes this in the selector lists (`Element.Selector`).
- For the confirm button, the raise happens at the second alternative (src/worker.js:565). The third and fourth alternatives are never reached (`Element.ConfirmChainUsesOnlyFirst`).
- For the save button, the raise happens at the last alternative (src/worker.js:720). When the four CSS alternatives are all absent, the `catch` at src/worker.js:747-768 runs the scan for an anchor reading "保存" (`Element.SaveForm`).
- In the login loop, a reload that fails after a timeout is counted twice: once at src/main.js:530 and once more in the outer `catch` at src/main.js:554. The count can therefore reach 11, and five such passes exhaust the ten attempts (`Login.RefreshCountCanReachEleven`, `Login.FailingReloadsGiveUpAfterFive`).

=== FILE: control_server.dfy ===
/**
 The control server: a single automation task at a time, started and
 stopped over HTTP, and a bounded log buffer fed by the server itself and
 by the automation task's output.

 The child process, the file system and the clock are not modelled: the
 child's pid, the outcome of writing the `.env` file, the outcome of the
 kill, and every event the child raises are inputs. Each handler returns
 the new state, the reply and the log entries it emitted.
 */
module ControlServer {
  import opened JsText

  /** The buffer keeps the newest 100 entries. */
  const LogCapacity: nat := 100
  /** `/api/status` shows the newest 20 of them. */
  const StatusWindow: nat := 20

  const AlreadyRunning: string := "任务已在运行中"
  const KeywordMissing: string := "请提供搜索关键词"
  const NothingRunning: string := "没有正在运行的任务"
  const Started: string := "任务已启动"
  const Stopped: string := "任务已停止"
  const EnvWriteFailed: string := "写入.env文件失败: "
  const TaskStarting: string := "开始执行自动化任务，关键词: "
  const StopByUser: string := "用户手动停止任务"
  const StopFailed: string := "停止任务失败: "
  const TaskFinished: string := "任务完成，退出代码: "
  const TaskFailed: string := "任务执行错误: "
  const InterruptNotice: string := "收到关闭信号，正在关闭服务器..."
  const TerminateNotice: string := "收到终止信号，正在关闭服务器..."
  /** What the start handler uses when the request names no `maxItems`. */
  const DefaultMaxItems: string := "-1"

  datatype LogKind = Info | Success | Warning | Error
  datatype LogEntry = LogEntry(message: string, kind: LogKind)

  /** `isRunning`, the pid of `currentProcess` (None for null), and `logs`. */
  datatype ServerState = ServerState(isRunning: bool, child: Option<nat>, logs: seq<LogEntry>)

  const Initial: ServerState := ServerState(false, None, [])

  /** The state every handler keeps: a bounded buffer, and a child exactly while running. */
  predicate Inv(s: ServerState) {
    |s.logs| <= LogCapacity && (s.isRunning <==> s.child.Some?)
  }

  // ---------------------------------------------------------------------
  // The log buffer (addLog) and the status view

  function Min(a: nat, b: nat): nat {
    if a <= b then a else b
  }

  /** `logs.slice(-n)` for a positive `n`: the last `n` entries, or all when there are fewer. */
  function Newest(logs: seq<LogEntry>, n: nat): (r: seq<LogEntry>)
    ensures |r| == Min(|logs|, n)
    ensures r == logs[|logs| - |r|..]
  {
    if |logs| <= n then logs else logs[|logs| - n..]
  }

  /** `addLog`: push the entry, then cut the buffer back to its capacity. */
  function AddLog(logs: seq<LogEntry>, e: LogEntry): (r: seq<LogEntry>)
    ensures |r| == Min(|logs| + 1, LogCapacity)
    ensures r[|r| - 1] == e
    ensures |logs| < LogCapacity ==> r == logs + [e]
    ensures r == Newest(logs + [e], LogCapacity)
  {
    var pushed := logs + [e];
    if |pushed| > LogCapacity then pushed[|pushed| - LogCapacity..] else pushed
  }

  /** `addLog` called on each entry in turn. */
  function AddLogs(logs: seq<LogEntry>, es: seq<LogEntry>): seq<LogEntry>
    decreases |es|
  {
    if |es| == 0 then logs else AddLogs(AddLog(logs, es[0]), es[1..])
  }

  /** Cutting a buffer back before appending more does not change what the next cut keeps. */
  lemma NewestAbsorbs(x: seq<LogEntry>, rest: seq<LogEntry>, n: nat)
    ensures Newest(Newest(x, n) + rest, n) == Newest(x + rest, n)
  {
    if |x| > n {
      var z := x + rest;
      assert Newest(x, n) + rest == z[|x| - n..];
    }
  }

  /** Two cuts in a row keep the newest entries of everything appended. */
  lemma NewestChain(x: seq<LogEntry>, a: seq<LogEntry>, b: seq<LogEntry>, n: nat)
    ensures Newest(Newest(x + a, n) + b, n) == Newest(x + (a + b), n)
  {
    NewestAbsorbs(x + a, b, n);
    assert x + a + b == x + (a + b);
  }

  /** However many entries are added, the buffer holds the newest 100 of all of them. */
  lemma {:induction false} AddLogsKeepsNewest(logs: seq<LogEntry>, es: seq<LogEntry>)
    requires |logs| <= LogCapacity
    ensures AddLogs(logs, es) == Newest(logs + es, LogCapacity)
    decreases |es|
  {
    if |es| == 0 {
      assert logs + es == logs;
    } else {
      AddLogsKeepsNewest(AddLog(logs, es[0]), es[1..]);
      NewestChain(logs, [es[0]], es[1..], LogCapacity);
      assert [es[0]] + es[1..] == es;
    }
  }

  /** The reply of `/api/status`. */
  datatype StatusView = StatusView(isRunning: bool, logs: seq<LogEntry>)

  function Status(s: ServerState): (v: StatusView)
    ensures v.isRunning == s.isRunning
    ensures |v.logs| == Min(|s.logs|, StatusWindow)
    ensures forall i :: 0 <= i < |v.logs| ==> v.logs[i] == s.logs[|s.logs| - |v.logs| + i]
  {
    StatusView(s.isRunning, Newest(s.logs, StatusWindow))
  }

  /** The newest entry of the buffer is always the newest entry of the status view. */
  lemma StatusShowsNewest(s: ServerState)
    requires |s.logs| > 0
    ensures |Status(s).logs| > 0 && Status(s).logs[|Status(s).logs| - 1] == s.logs[|s.logs| - 1]
  {
  }

  // ---------------------------------------------------------------------
  // Handlers

  datatype Reply = Ok(message: string) | BadRequest(error: string) | NoReply

  /** What the start handler hands to the child: its environment and the `.env` text. */
  datatype Launch = Launch(searchKeyword: string, maxItems: string, envFile: string)

  datatype Outcome = Outcome(state: ServerState, reply: Reply, emitted: seq<LogEntry>, launch: Option<Launch>)

  /** The keyword is present and not the empty string (the request's truthiness test). */
  predicate KeywordGiven(k: Option<string>) {
    k.Some? && k.value != ""
  }

  /** The state after emitting `es`, with running flag and child replaced. */
  function Emit(s: ServerState, isRunning: bool, child: Option<nat>, es: seq<LogEntry>): (t: ServerState)
    requires |s.logs| <= LogCapacity
    ensures t.isRunning == isRunning && t.child == child
    ensures t.logs == Newest(s.logs + es, LogCapacity)
  {
    AddLogsKeepsNewest(s.logs, es);
    ServerState(isRunning, child, AddLogs(s.logs, es))
  }

  /**
   `POST /api/start`: refused while a task runs, then refused without a
   keyword; otherwise the `.env` file is written (a failure only logs a
   warning), the child is launched and the server is running.
   */
  function Start(s: ServerState, searchKeyword: Option<string>, maxItems: Option<string>,
                 envWriteError: Option<string>, pid: nat): (o: Outcome)
    requires Inv(s)
    ensures s.isRunning ==> o == Outcome(s, BadRequest(AlreadyRunning), [], None)
    ensures !s.isRunning && !KeywordGiven(searchKeyword) ==>
      o == Outcome(s, BadRequest(KeywordMissing), [], None)
    ensures o.launch.Some? <==> !s.isRunning && KeywordGiven(searchKeyword)
    ensures o.launch.Some? ==>
      && o.reply == Ok(Started)
      && o.state.isRunning && o.state.child == Some(pid)
      && o.launch.value.searchKeyword == searchKeyword.value
      && o.launch.value.maxItems == maxItems.GetOr(DefaultMaxItems)
      && |o.emitted| == (if envWriteError.Some? then 2 else 1)
      && o.emitted[|o.emitted| - 1] == LogEntry(TaskStarting + searchKeyword.value, Info)
      && (envWriteError.Some? ==> o.emitted[0] == LogEntry(EnvWriteFailed + envWriteError.value, Warning))
    ensures o.state.logs == Newest(s.logs + o.emitted, LogCapacity)
  {
    if s.isRunning then Outcome(s, BadRequest(AlreadyRunning), [], None)
    else if !KeywordGiven(searchKeyword) then Outcome(s, BadRequest(KeywordMissing), [], None)
    else
      var keyword := searchKeyword.value;
      var max := maxItems.GetOr(DefaultMaxItems);
      var envFile := "SEARCH_KEYWORD=" + keyword + "\nMAX_ITEMS=" + max;
      var warning := match envWriteError
        case None => []
        case Some(m) => [LogEntry(EnvWriteFailed + m, Warning)];
      var es := warning + [LogEntry(TaskStarting + keyword, Info)];
      Outcome(Emit(s, true, Some(pid), es), Ok(Started), es, Some(Launch(keyword, max, envFile)))
  }

  /**
   `POST /api/stop`: refused unless a task runs; otherwise the kill is sent
   and logged (or its failure is), and the reply is a success either way.
   The running flag and the child stay as they were until the child closes.
   */
  function Stop(s: ServerState, killError: Option<string>): (o: Outcome)
    requires Inv(s)
    ensures !s.isRunning ==> o == Outcome(s, BadRequest(NothingRunning), [], None)
    ensures s.isRunning ==>
      && o.reply == Ok(Stopped)
      && o.state.isRunning && o.state.child == s.child
      && o.emitted == [if killError.Some? then LogEntry(StopFailed + killError.value, Error)
                       else LogEntry(StopByUser, Warning)]
    ensures o.launch.None?
    ensures o.state.logs == Newest(s.logs + o.emitted, LogCapacity)
  {
    if !s.isRunning || s.child.None? then Outcome(s, BadRequest(NothingRunning), [], None)
    else
      var e := match killError
        case None => LogEntry(StopByUser, Warning)
        case Some(m) => LogEntry(StopFailed + m, Error);
      Outcome(Emit(s, s.isRunning, s.child, [e]), Ok(Stopped), [e], None)
  }

  /**
   `${code}` of the exit code: a number, or "null" when a signal ended the
   child. A child that could not be spawned closes with a negative code.
   */
  function ExitCodeText(code: Option<int>): (t: string)
    ensures code.None? <==> t == "null"
    ensures code.Some? && code.value >= 0 ==> Canonical(t) && DecimalValue(t) == code.value
    ensures code.Some? && code.value < 0 ==>
      |t| >= 2 && t[0] == '-' && Canonical(t[1..]) && DecimalValue(t[1..]) == -code.value
  {
    match code
    case None => "null"
    case Some(n) =>
      if n < 0 then
        var t := "-" + NatToDecimal(-n);
        assert t[1..] == NatToDecimal(-n);
        t
      else NatToDecimal(n)
  }

  /** The child's `close` event: the server is idle again, and a clean exit is logged as a success. */
  function OnClose(s: ServerState, code: Option<int>): (o: Outcome)
    requires Inv(s)
    ensures !o.state.isRunning && o.state.child.None?
    ensures |o.emitted| == 1 && o.emitted[0].message == TaskFinished + ExitCodeText(code)
    ensures o.emitted[0].kind == Success <==> code == Some(0)
    ensures o.emitted[0].kind == Success || o.emitted[0].kind == Error
    ensures o.reply == NoReply && o.launch.None?
    ensures o.state.logs == Newest(s.logs + o.emitted, LogCapacity)
  {
    var e := LogEntry(TaskFinished + ExitCodeText(code), if code == Some(0) then Success else Error);
    Outcome(Emit(s, false, None, [e]), NoReply, [e], None)
  }

  /** A child that could not be spawned closes with a negative errno, logged as a failed finish. */
  lemma SpawnFailureCloseLogged(s: ServerState)
    requires Inv(s)
    ensures OnClose(s, Some(-2)).emitted == [LogEntry(TaskFinished + "-2", Error)]
  {
    assert NatToDecimal(2) == "2";
    assert ExitCodeText(Some(-2)) == "-2";
  }

  /** The child's `error` event (it could not be spawned or signalled). */
  function OnError(s: ServerState, message: string): (o: Outcome)
    requires Inv(s)
    ensures !o.state.isRunning && o.state.child.None?
    ensures o.emitted == [LogEntry(TaskFailed + message, Error)]
    ensures o.reply == NoReply && o.launch.None?
    ensures o.state.logs == Newest(s.logs + o.emitted, LogCapacity)
  {
    var e := LogEntry(TaskFailed + message, Error);
    Outcome(Emit(s, false, None, [e]), NoReply, [e], None)
  }

  /**
   A chunk on the child's stdout or stderr: logged trimmed, as info or as
   an error, unless nothing but whitespace is left.
   */
  function OnOutput(s: ServerState, data: string, fromStderr: bool): (o: Outcome)
    requires Inv(s)
    ensures o.state.isRunning == s.isRunning && o.state.child == s.child
    ensures Blank(data) ==> o.emitted == [] && o.state == s
    ensures !Blank(data) ==>
      && |o.emitted| == 1
      && o.emitted[0].kind == (if fromStderr then Error else Info)
      && o.emitted[0].message == Trim(data) && Trim(o.emitted[0].message) == o.emitted[0].message
    ensures o.reply == NoReply && o.launch.None?
    ensures o.state.logs == Newest(s.logs + o.emitted, LogCapacity)
  {
    var message := Trim(data);
    if message == "" then
      assert s.logs + [] == s.logs;
      Outcome(s, NoReply, [], None)
    else
      TrimIdempotent(data);
      var e := LogEntry(message, if fromStderr then Error else Info);
      Outcome(Emit(s, s.isRunning, s.child, [e]), NoReply, [e], None)
  }

  // ---------------------------------------------------------------------
  // Runs of events

  datatype Event =
    | StartRequested(searchKeyword: Option<string>, maxItems: Option<string>, envWriteError: Option<string>, pid: nat)
    | StopRequested(killError: Option<string>)
    | ChildOutput(data: string, fromStderr: bool)
    | ChildClosed(code: Option<int>)
    | ChildFailed(message: string)

  function Handle(s: ServerState, ev: Event): (o: Outcome)
    requires Inv(s)
    ensures Inv(o.state)
    ensures o.state.logs == Newest(s.logs + o.emitted, LogCapacity)
  {
    match ev
    case StartRequested(k, m, w, pid) => Start(s, k, m, w, pid)
    case StopRequested(err) => Stop(s, err)
    case ChildOutput(data, fromStderr) => OnOutput(s, data, fromStderr)
    case ChildClosed(code) => OnClose(s, code)
    case ChildFailed(message) => OnError(s, message)
  }

  /** The state after the events in order, and every entry they emitted. */
  datatype Trace = Trace(state: ServerState, emitted: seq<LogEntry>)

  function Run(s: ServerState, evs: seq<Event>): (t: Trace)
    requires Inv(s)
    decreases |evs|
  {
    if |evs| == 0 then Trace(s, [])
    else
      var o := Handle(s, evs[0]);
      var rest := Run(o.state, evs[1..]);
      Trace(rest.state, o.emitted + rest.emitted)
  }

  /**
   Whatever the order of requests and child events, the buffer never holds
   more than 100 entries and the server runs exactly while it holds a child.
   */
  lemma {:induction false} RunKeepsInvariant(s: ServerState, evs: seq<Event>)
    requires Inv(s)
    ensures Inv(Run(s, evs).state)
    decreases |evs|
  {
    if |evs| > 0 {
      RunKeepsInvariant(Handle(s, evs[0]).state, evs[1..]);
    }
  }

  /** After any run the buffer is the newest 100 of the entries it held and everything logged since. */
  lemma {:induction false} RunKeepsNewestLogs(s: ServerState, evs: seq<Event>)
    requires Inv(s)
    ensures Run(s, evs).state.logs == Newest(s.logs + Run(s, evs).emitted, LogCapacity)
    decreases |evs|
  {
    if |evs| > 0 {
      var o := Handle(s, evs[0]);
      RunKeepsNewestLogs(o.state, evs[1..]);
      NewestChain(s.logs, o.emitted, Run(o.state, evs[1..]).emitted, LogCapacity);
    } else {
      assert s.logs + [] == s.logs;
    }
  }

  /** A second start is refused while the first task runs, and nothing is logged. */
  lemma NoSecondTask(k1: string, m1: Option<string>, w1: Option<string>, pid1: nat,
                     k2: Option<string>, m2: Option<string>, w2: Option<string>, pid2: nat)
    requires k1 != ""
    ensures var first := Start(Initial, Some(k1), m1, w1, pid1).state;
      Start(first, k2, m2, w2, pid2) == Outcome(first, BadRequest(AlreadyRunning), [], None)
  {
  }

  /** A stop request leaves the task marked as running until the child's close event. */
  lemma StopThenClose(k: string, pid: nat, code: Option<int>)
    requires k != ""
    ensures var started := Start(Initial, Some(k), None, None, pid).state;
      var stopped := Stop(started, None).state;
      && stopped.isRunning
      && Start(stopped, Some(k), None, None, pid).reply == BadRequest(AlreadyRunning)
      && !OnClose(stopped, code).state.isRunning
  {
  }

  // ---------------------------------------------------------------------
  // Shutting down on a signal

  datatype Signal = Interrupt | Terminate

  /** The server logs a warning, sends the child SIGTERM if there is one, and exits with 0. */
  datatype Shutdown = Shutdown(logs: seq<LogEntry>, killsChild: bool, exitCode: int)

  function OnSignal(s: ServerState, sig: Signal): (r: Shutdown)
    requires Inv(s)
    ensures r.exitCode == 0
    ensures r.killsChild <==> s.child.Some?
    ensures |r.logs| > 0 && r.logs[|r.logs| - 1].kind == Warning
    ensures r.logs[|r.logs| - 1].message == (if sig == Interrupt then InterruptNotice else TerminateNotice)
  {
    var notice := if sig == Interrupt then InterruptNotice else TerminateNotice;
    Shutdown(AddLog(s.logs, LogEntry(notice, Warning)), s.child.Some?, 0)
  }
}

=== FILE: coordinator.dfy ===
/**
 The coordinator: resolve the item limit, wait for the login, then walk the
 group list page by page, spawning one worker per row until the limit of
 successful workers is reached or the pages run out (`processListData`).

 What each page holds, how each worker exited and what the next-page
 control reports are observations handed in by the caller; the workers run
 concurrently in the source, but only their settled results matter here.
 */
module Coordinator {
  import opened JsText
  import Login
  import Worker

  // ---------------------------------------------------------------------
  // Configuration

  /** "Process everything": the value of `maxItems` when no limit is set. */
  const Unlimited: int := -1

  const DefaultTargetUrl: string := "https://work.weixin.qq.com/wework_admin/frame#/chatGroup"

  /** JavaScript truthiness of a `parseInt` result: `NaN` and 0 are falsy. */
  predicate Truthy(n: Option<int>) {
    n.Some? && n.value != 0
  }

  /**
   `parseInt(process.env.MAX_ITEMS) || parseInt(process.argv[2]) || -1`:
   an absent value parses to `NaN`.
   */
  function ResolveMaxItems(env: Option<string>, arg: Option<string>): (r: int)
    ensures r != 0
    ensures Truthy(ParseIntOf(env)) ==> r == ParseIntOf(env).value
    ensures !Truthy(ParseIntOf(env)) && Truthy(ParseIntOf(arg)) ==> r == ParseIntOf(arg).value
    ensures !Truthy(ParseIntOf(env)) && !Truthy(ParseIntOf(arg)) ==> r == Unlimited
  {
    var fromEnv := ParseIntOf(env);
    var fromArg := ParseIntOf(arg);
    if fromEnv.Some? && fromEnv.value != 0 then fromEnv.value
    else if fromArg.Some? && fromArg.value != 0 then fromArg.value
    else -1
  }

  /** `parseInt(undefined)` is `NaN`. */
  function ParseIntOf(v: Option<string>): Option<int> {
    match v
    case None => None
    case Some(s) => ParseInt(s)
  }

  /**
   A decimal numeral (optionally preceded by whitespace and followed by any
   text that does not continue it) in `MAX_ITEMS` sets the limit to its
   value, unless that value is 0.
   */
  lemma MaxItemsFromEnvironment(ws: string, z: string, rest: string, arg: Option<string>)
    requires AllWhitespace(ws)
    requires |z| > 0 && AllDigits(z) && DecimalValue(z) != 0
    requires |rest| == 0 || !IsDigit(rest[0])
    ensures ResolveMaxItems(Some(ws + z + rest), arg) == DecimalValue(z)
  {
    assert DecimalValue("0") == 0;
    ParseIntPaddedDigits(ws, z, rest);
  }

  /** `MAX_ITEMS=0` falls through to the command-line argument. */
  lemma ZeroMaxItemsFallsThrough(arg: Option<string>)
    ensures ResolveMaxItems(Some("0"), arg) == ResolveMaxItems(None, arg)
  {
    ParseIntDigits("0", "");
    assert "0" + "" == "0";
  }

  /** No value anywhere means no limit. */
  lemma NoMaxItemsIsUnlimited()
    ensures ResolveMaxItems(None, None) == Unlimited
  {
  }

  /**
   `effectiveMaxItems`: every branch of the source keeps the configured
   value, so whether a search ran never changes the limit.
   */
  function EffectiveMaxItems(maxItems: int, hasSearched: bool): (r: int)
    ensures r == maxItems
    ensures r == Unlimited <==> maxItems == Unlimited
  {
    if maxItems == -1 && hasSearched then -1
    else if maxItems == -1 && !hasSearched then -1
    else maxItems
  }

  /**
   Whether the search step ran: a keyword that is not blank, a search box
   on the page, and no exception while typing it in.
   */
  function SearchApplied(keyword: Option<string>, inputFound: bool, searchRaised: bool): (r: bool)
    ensures r <==> keyword.Some? && !Blank(keyword.value) && inputFound && !searchRaised
  {
    match keyword
    case None => false
    case Some(k) => !Blank(k) && inputFound && !searchRaised
  }

  /** `process.env.TARGET_URL || default`: an empty value is falsy too. */
  function TargetUrl(env: Option<string>): (url: string)
    ensures url != ""
    ensures env.Some? && env.value != "" ==> url == env.value
    ensures env.None? || env.value == "" ==> url == DefaultTargetUrl
  {
    match env
    case Some(u) => if u != "" then u else DefaultTargetUrl
    case None => DefaultTargetUrl
  }

  // ---------------------------------------------------------------------
  // Workers and their results

  /**
   How a worker's promise settled: the child closed with an exit code (none
   when a signal ended it), or spawning it raised an `error` event first.
   */
  datatype WorkerOutcome = Exited(code: Option<int>) | SpawnFailed

  /** Only `close` with code 0 resolves the promise to `true`. */
  predicate Succeeded(w: WorkerOutcome) {
    w == Exited(Some(0))
  }

  /** The number of successful outcomes among `ws`. */
  function Successes(ws: seq<WorkerOutcome>): (n: nat)
    ensures n <= |ws|
  {
    if |ws| == 0 then 0
    else Successes(ws[..|ws| - 1]) + (if Succeeded(ws[|ws| - 1]) then 1 else 0)
  }

  /** All workers succeeded exactly when the tally equals their number, and none when it is 0. */
  lemma {:induction false} SuccessesExtremes(ws: seq<WorkerOutcome>)
    ensures Successes(ws) == |ws| <==> forall i :: 0 <= i < |ws| ==> Succeeded(ws[i])
    ensures Successes(ws) == 0 <==> forall i :: 0 <= i < |ws| ==> !Succeeded(ws[i])
  {
    if |ws| > 0 {
      var init := ws[..|ws| - 1];
      SuccessesExtremes(init);
      assert forall i :: 0 <= i < |ws| - 1 ==> init[i] == ws[i];
    }
  }

  /** The `results.forEach` tally: every settled result is a success or a failure. */
  method Tally(results: seq<WorkerOutcome>) returns (successCount: nat, failureCount: nat)
    ensures successCount == Successes(results)
    ensures successCount + failureCount == |results|
  {
    successCount, failureCount := 0, 0;
    var i := 0;
    while i < |results|
      invariant 0 <= i <= |results|
      invariant successCount == Successes(results[..i])
      invariant successCount + failureCount == i
    {
      assert results[..i + 1][..i] == results[..i];
      if Succeeded(results[i]) {
        successCount := successCount + 1;
      } else {
        failureCount := failureCount + 1;
      }
      i := i + 1;
    }
    assert results[..i] == results;
  }

  /**
   A worker exits with 0 exactly when it opened the edit page, so it is
   counted as a success even when no group on that page was a candidate.
   */
  lemma WorkerSuccessMeansPageOpened(editUrl: string, o: Worker.WorkerObs)
    ensures Succeeded(Exited(Some(Worker.WorkerMain(editUrl, o).exitCode)))
      <==> Worker.EditPageOpened(editUrl, o)
  {
  }

  // ---------------------------------------------------------------------
  // Pages

  /** One table row: the edit link's `href` if the row has one, and how its worker ended. */
  datatype RowObs = RowObs(editHref: Option<string>, outcome: WorkerOutcome)

  /**
   The next-page control as found by its selector: absent, or present with
   its `disabled` property, whether its class list holds `disabled`, and its
   `aria-disabled` attribute.
   */
  datatype NextControl =
    | NoControl
    | Control(disabledProp: bool, classDisabled: bool, ariaDisabled: Option<string>)

  predicate NextEnabled(c: NextControl) {
    c.Control? && !(c.disabledProp || c.classDisabled || c.ariaDisabled == Some("true"))
  }

  datatype PageObs = PageObs(rows: seq<RowObs>, next: NextControl)

  /** The JSON task handed to a worker (the session data is left out). */
  datatype TaskDescriptor = TaskDescriptor(
    itemIndex: nat,
    pageNumber: nat,
    searchKeyword: Option<string>,
    targetUrl: string,
    editUrl: string)

  datatype Config = Config(
    maxItems: int,
    searchKeyword: Option<string>,
    targetUrlEnv: Option<string>)

  /** The loop condition: no limit, or fewer successes than the limit so far. */
  predicate BelowLimit(cap: int, total: nat) {
    cap == Unlimited || total < cap
  }

  /** How many rows of the page get a worker. */
  function ItemsToProcess(rowCount: nat, cap: int, total: nat): (n: nat)
    requires BelowLimit(cap, total)
    ensures n <= rowCount
    ensures cap != Unlimited ==> total + n <= cap
    ensures n == rowCount || total + n == cap
    ensures rowCount > 0 ==> n > 0
  {
    if cap == -1 then rowCount
    else
      var remaining := cap - total;
      if rowCount <= remaining then rowCount else remaining
  }

  /** The descriptor of the `i`-th row of page `pageNumber`. */
  function Describe(cfg: Config, row: RowObs, i: nat, pageNumber: nat): TaskDescriptor {
    TaskDescriptor(i, pageNumber, cfg.searchKeyword, TargetUrl(cfg.targetUrlEnv), row.editHref.GetOr(""))
  }

  /** The descriptors of the first `n` rows: the tasks spawned for the page. */
  function DescribeRows(cfg: Config, rows: seq<RowObs>, n: nat, pageNumber: nat): (ts: seq<TaskDescriptor>)
    requires n <= |rows|
    ensures |ts| == n
    ensures forall i :: 0 <= i < n ==>
      ts[i].itemIndex == i && ts[i].pageNumber == pageNumber
      && ts[i].editUrl == rows[i].editHref.GetOr("")
      && ts[i].targetUrl == TargetUrl(cfg.targetUrlEnv)
      && ts[i].searchKeyword == cfg.searchKeyword
  {
    if n == 0 then [] else DescribeRows(cfg, rows, n - 1, pageNumber) + [Describe(cfg, rows[n - 1], n - 1, pageNumber)]
  }

  /** The outcomes of the first `n` rows. */
  function Outcomes(rows: seq<RowObs>, n: nat): (ws: seq<WorkerOutcome>)
    requires n <= |rows|
    ensures |ws| == n && forall i :: 0 <= i < n ==> ws[i] == rows[i].outcome
  {
    if n == 0 then [] else Outcomes(rows, n - 1) + [rows[n - 1].outcome]
  }

  /** The successful workers among the first `n` rows. */
  function RowSuccesses(rows: seq<RowObs>, n: nat): (k: nat)
    requires n <= |rows|
    ensures k <= n
  {
    if n == 0 then 0
    else RowSuccesses(rows, n - 1) + (if Succeeded(rows[n - 1].outcome) then 1 else 0)
  }

  /** Counting along the rows agrees with tallying their settled results. */
  lemma {:induction false} RowSuccessesIsTally(rows: seq<RowObs>, n: nat)
    requires n <= |rows|
    ensures RowSuccesses(rows, n) == Successes(Outcomes(rows, n))
  {
    if n > 0 {
      RowSuccessesIsTally(rows, n - 1);
      var ws := Outcomes(rows, n);
      assert ws[..n - 1] == Outcomes(rows, n - 1);
    }
  }

  /** What one page contributed: how many workers ran and how they ended. */
  datatype PageReport = PageReport(
    pageNumber: nat,
    totalBefore: nat,
    spawned: nat,
    successCount: nat,
    failureCount: nat)

  /** One pass of the page loop, from the row query to the tally. */
  function ProcessPage(cfg: Config, p: PageObs, pageNumber: nat, totalBefore: nat): (r: PageReport)
    requires BelowLimit(cfg.maxItems, totalBefore) && |p.rows| > 0
    ensures r.pageNumber == pageNumber && r.totalBefore == totalBefore
    ensures 0 < r.spawned <= |p.rows|
    ensures cfg.maxItems == Unlimited ==> r.spawned == |p.rows|
    ensures cfg.maxItems != Unlimited ==> totalBefore + r.spawned <= cfg.maxItems
    ensures r.spawned == |p.rows| || totalBefore + r.spawned == cfg.maxItems
    ensures r.successCount == RowSuccesses(p.rows, r.spawned)
    ensures r.successCount + r.failureCount == r.spawned
  {
    var n := ItemsToProcess(|p.rows|, cfg.maxItems, totalBefore);
    var s := RowSuccesses(p.rows, n);
    PageReport(pageNumber, totalBefore, n, s, n - s)
  }

  /** Why the page loop ended. */
  datatype StopReason =
    | EmptyPage           // the row query found nothing
    | LimitReached        // the successes reached the limit (or the limit admits none)
    | NoNextPage          // no next-page control
    | NextDisabled        // the control is disabled
    | OutOfObservations   // the loop would go on past the pages observed

  datatype ListRun = ListRun(reports: seq<PageReport>, total: nat, stop: StopReason)

  function SumSuccesses(reports: seq<PageReport>): nat {
    if |reports| == 0 then 0 else reports[0].successCount + SumSuccesses(reports[1..])
  }

  /** What one pass of the loop decides: stop here, or turn to the next page. */
  datatype Pass =
    | Halt(reports: seq<PageReport>, total: nat, stop: StopReason)
    | Turn(report: PageReport, after: nat)

  /**
   One pass of the `while (hasMorePages && (limit === -1 || total < limit))`
   loop at page `k + 1` (the observation `pages[k]`) with `total` successes
   so far. After a page it turns to the next one only while still below the
   limit and the control is present and enabled.
   */
  function PagePass(cfg: Config, pages: seq<PageObs>, k: nat, total: nat): (d: Pass)
    requires k <= |pages|
    ensures d.Halt? ==> |d.reports| <= 1 && k + |d.reports| <= |pages|
    ensures d.Halt? ==> d.total == total + SumSuccesses(d.reports)
    ensures d.Halt? && |d.reports| == 1 ==>
      k < |pages| && BelowLimit(cfg.maxItems, total) && |pages[k].rows| > 0
      && d.reports[0] == ProcessPage(cfg, pages[k], k + 1, total)
    ensures d.Halt? ==> (d.stop == LimitReached <==> !BelowLimit(cfg.maxItems, d.total))
    ensures d.Halt? && d.stop == EmptyPage ==> |d.reports| == 0 && k < |pages| && |pages[k].rows| == 0
    ensures d.Halt? && d.stop == OutOfObservations ==> |d.reports| == 0 && k == |pages|
    ensures d.Halt? && d.stop == NoNextPage ==> |d.reports| == 1 && pages[k].next.NoControl?
    ensures d.Halt? && d.stop == NextDisabled ==>
      |d.reports| == 1 && pages[k].next.Control? && !NextEnabled(pages[k].next)
    ensures d.Turn? ==>
      k < |pages| && BelowLimit(cfg.maxItems, total) && |pages[k].rows| > 0
      && d.report == ProcessPage(cfg, pages[k], k + 1, total)
      && d.after == total + d.report.successCount
      && BelowLimit(cfg.maxItems, d.after) && NextEnabled(pages[k].next)
  {
    if !BelowLimit(cfg.maxItems, total) then Halt([], total, LimitReached)
    else if k == |pages| then Halt([], total, OutOfObservations)
    else
      var p := pages[k];
      if |p.rows| == 0 then Halt([], total, EmptyPage)
      else
        var report := ProcessPage(cfg, p, k + 1, total);
        var after := total + report.successCount;
        if !BelowLimit(cfg.maxItems, after) then Halt([report], after, LimitReached)
        else if p.next.NoControl? then Halt([report], after, NoNextPage)
        else if !NextEnabled(p.next) then Halt([report], after, NextDisabled)
        else Turn(report, after)
  }

  /** The page loop from page `k + 1` until a pass halts. */
  function ListLoop(cfg: Config, pages: seq<PageObs>, k: nat, total: nat): (r: ListRun)
    requires k <= |pages|
    decreases |pages| - k
    ensures k + |r.reports| <= |pages|
  {
    match PagePass(cfg, pages, k, total)
    case Halt(reports, t, stop) => ListRun(reports, t, stop)
    case Turn(report, after) =>
      var rest := ListLoop(cfg, pages, k + 1, after);
      ListRun([report] + rest.reports, rest.total, rest.stop)
  }

  /** The successes of a run are those of its reports. */
  lemma {:induction false} RunTotal(cfg: Config, pages: seq<PageObs>, k: nat, total: nat)
    requires k <= |pages|
    decreases |pages| - k
    ensures var r := ListLoop(cfg, pages, k, total);
      r.total == total + SumSuccesses(r.reports)
  {
    match PagePass(cfg, pages, k, total)
    case Halt(_, _, _) =>
    case Turn(report, after) =>
      RunTotal(cfg, pages, k + 1, after);
      var rest := ListLoop(cfg, pages, k + 1, after).reports;
      assert ([report] + rest)[1..] == rest;
  }

  /**
   The run ends with the first pass that halts: its stop reason and total
   are the run's, and its report (if any) is the run's last.
   */
  lemma {:induction false} RunEndsWithHalt(cfg: Config, pages: seq<PageObs>, k: nat, total: nat)
    returns (j: nat, t: nat)
    requires k <= |pages|
    decreases |pages| - k
    ensures k <= j <= |pages|
    ensures var r := ListLoop(cfg, pages, k, total);
      var d := PagePass(cfg, pages, j, t);
      d.Halt? && r.stop == d.stop && r.total == d.total && k + |r.reports| == j + |d.reports|
  {
    match PagePass(cfg, pages, k, total)
    case Halt(_, _, _) =>
      j, t := k, total;
    case Turn(_, after) =>
      j, t := RunEndsWithHalt(cfg, pages, k + 1, after);
  }

  /**
   Report `i` is page `k + i + 1` processed from the observation
   `pages[k + i]`; the first one starts from the successes counted so far.
   */
  lemma {:induction false} ReportAt(cfg: Config, pages: seq<PageObs>, k: nat, total: nat, i: nat)
    requires k <= |pages| && i < |ListLoop(cfg, pages, k, total).reports|
    decreases i
    ensures var r := ListLoop(cfg, pages, k, total);
      && k + i < |pages|
      && BelowLimit(cfg.maxItems, r.reports[i].totalBefore) && |pages[k + i].rows| > 0
      && r.reports[i] == ProcessPage(cfg, pages[k + i], k + i + 1, r.reports[i].totalBefore)
      && (i == 0 ==> r.reports[i].totalBefore == total)
  {
    match PagePass(cfg, pages, k, total)
    case Halt(_, _, _) =>
    case Turn(report, after) =>
      if i > 0 {
        var rest := ListLoop(cfg, pages, k + 1, after).reports;
        assert ([report] + rest)[i] == rest[i - 1];
        ReportAt(cfg, pages, k + 1, after, i - 1);
      }
  }

  /** A report is followed by another only when its page had an enabled next-page control. */
  lemma {:induction false} TurnedOnlyWhenEnabled(cfg: Config, pages: seq<PageObs>, k: nat, total: nat, i: nat)
    requires k <= |pages| && i + 1 < |ListLoop(cfg, pages, k, total).reports|
    decreases i
    ensures k + i < |pages| && NextEnabled(pages[k + i].next)
  {
    match PagePass(cfg, pages, k, total)
    case Halt(_, _, _) =>
    case Turn(_, after) =>
      if i > 0 {
        TurnedOnlyWhenEnabled(cfg, pages, k + 1, after, i - 1);
      }
  }

  /** Each report after the first starts from the successes of those before it. */
  lemma {:induction false} ReportsLinked(cfg: Config, pages: seq<PageObs>, k: nat, total: nat, i: nat)
    requires k <= |pages| && i + 1 < |ListLoop(cfg, pages, k, total).reports|
    decreases i
    ensures var r := ListLoop(cfg, pages, k, total);
      r.reports[i + 1].totalBefore == r.reports[i].totalBefore + r.reports[i].successCount
  {
    match PagePass(cfg, pages, k, total)
    case Halt(_, _, _) =>
    case Turn(report, after) =>
      var rest := ListLoop(cfg, pages, k + 1, after).reports;
      if i == 0 {
        ReportAt(cfg, pages, k + 1, after, 0);
        assert ([report] + rest)[1] == rest[0];
      } else {
        assert ([report] + rest)[i] == rest[i - 1] && ([report] + rest)[i + 1] == rest[i];
        ReportsLinked(cfg, pages, k + 1, after, i - 1);
      }
  }

  /** `processListData` from the first page. */
  function ProcessList(cfg: Config, pages: seq<PageObs>): (r: ListRun)
    ensures r.total == SumSuccesses(r.reports)
  {
    RunTotal(cfg, pages, 0, 0);
    ListLoop(cfg, pages, 0, 0)
  }

  /**
   With a limit, the successful workers never exceed it. Failed workers do
   not count, so more workers than the limit can be spawned in total.
   */
  lemma {:induction false} SuccessesWithinLimit(cfg: Config, pages: seq<PageObs>, k: nat, total: nat)
    requires k <= |pages| && cfg.maxItems >= 0 && total <= cfg.maxItems
    decreases |pages| - k
    ensures ListLoop(cfg, pages, k, total).total <= cfg.maxItems
  {
    match PagePass(cfg, pages, k, total)
    case Halt(reports, _, _) =>
      if |reports| == 1 {
        assert reports[1..] == [];
      }
    case Turn(_, after) =>
      SuccessesWithinLimit(cfg, pages, k + 1, after);
  }

  /** A limit of 0, or one below -1, lets the loop start no page at all. */
  lemma NoPageWithoutRoom(cfg: Config, pages: seq<PageObs>)
    requires cfg.maxItems == 0 || cfg.maxItems < -1
    ensures ProcessList(cfg, pages) == ListRun([], 0, LimitReached)
  {
  }

  /** Without a limit, every row of every page visited gets a worker. */
  lemma UnlimitedTakesWholePages(cfg: Config, pages: seq<PageObs>)
    requires cfg.maxItems == Unlimited
    ensures var r := ProcessList(cfg, pages);
      forall i :: 0 <= i < |r.reports| ==> r.reports[i].spawned == |pages[i].rows|
  {
    var r := ProcessList(cfg, pages);
    forall i | 0 <= i < |r.reports|
      ensures r.reports[i].spawned == |pages[i].rows|
    {
      ReportAt(cfg, pages, 0, 0, i);
    }
  }

  /**
   A limit of 3 and a single page of five rows whose workers all succeed:
   three workers are spawned and the loop stops at the limit.
   */
  lemma ThreeOfFiveWhenAllSucceed(cfg: Config, rows: seq<RowObs>, next: NextControl)
    requires cfg.maxItems == 3 && |rows| == 5
    requires forall i :: 0 <= i < 5 ==> Succeeded(rows[i].outcome)
    ensures var r := ProcessList(cfg, [PageObs(rows, next)]);
      |r.reports| == 1 && r.reports[0].spawned == 3 && r.total == 3 && r.stop == LimitReached
  {
    assert RowSuccesses(rows, 1) == 1;
    assert RowSuccesses(rows, 2) == 2;
    assert RowSuccesses(rows, 3) == 3;
  }

  /**
   With the same limit but every worker failing, the loop turns the page
   and spawns three more workers for the next one.
   */
  lemma FailuresKeepPaging(cfg: Config, rows1: seq<RowObs>, rows2: seq<RowObs>)
    requires cfg.maxItems == 3 && |rows1| == 5 && |rows2| == 5
    requires forall i :: 0 <= i < 5 ==> rows1[i].outcome == SpawnFailed
    requires forall i :: 0 <= i < 5 ==> rows2[i].outcome == Exited(Some(0))
    ensures var r := ProcessList(cfg, [PageObs(rows1, Control(false, false, None)), PageObs(rows2, NoControl)]);
      |r.reports| == 2 && r.reports[0].spawned == 3 && r.reports[1].spawned == 3
      && r.reports[0].successCount == 0 && r.total == 3
  {
    var pages := [PageObs(rows1, Control(false, false, None)), PageObs(rows2, NoControl)];
    assert RowSuccesses(rows1, 1) == 0;
    assert RowSuccesses(rows1, 2) == 0;
    assert RowSuccesses(rows1, 3) == 0;
    assert RowSuccesses(rows2, 1) == 1;
    assert RowSuccesses(rows2, 2) == 2;
    assert RowSuccesses(rows2, 3) == 3;
    var first := ProcessPage(cfg, pages[0], 1, 0);
    assert first.successCount == 0;
    var second := ProcessPage(cfg, pages[1], 2, 0);
    assert second.spawned == 3 && second.successCount == 3;
    assert ListLoop(cfg, pages, 1, 0) == ListRun([second], 3, LimitReached);
  }

  // ---------------------------------------------------------------------
  // The whole run

  /**
   The environment and argument the coordinator reads, and what the browser
   reported at the steps outside the loops: whether the navigations to the
   workbench and to the group-chat page and the capture of the session all
   went through, and whether the search box was found and the search typed
   in without an exception.
   */
  datatype Environment = Environment(
    maxItemsEnv: Option<string>,
    maxItemsArg: Option<string>,
    searchKeyword: Option<string>,
    targetUrl: Option<string>,
    postLoginOk: bool,
    searchInputFound: bool,
    searchRaised: bool)

  datatype AutomationRun = AutomationRun(
    maxItems: int,
    login: Login.LoginResult,
    searched: bool,
    list: Option<ListRun>)

  /**
   The top-level script: resolve the limit, wait for the login, open the
   group-chat page, and only then walk the list; a failed login or a
   failure on the way to the list throws and ends the script. Inside the
   list processing, the search step runs first and leaves the limit as it
   was.
   */
  function Automation(env: Environment, waits: seq<Login.WaitObs>, pages: seq<PageObs>): (r: AutomationRun)
    ensures r.maxItems == ResolveMaxItems(env.maxItemsEnv, env.maxItemsArg)
    ensures r.login == Login.WaitLoop(waits, 0)
    ensures r.list.Some? <==> r.login.LoggedIn? && env.postLoginOk
    ensures r.list.Some? ==>
      r.list.value == ProcessList(Config(r.maxItems, env.searchKeyword, env.targetUrl), pages)
    ensures r.searched <==> r.list.Some? && SearchApplied(env.searchKeyword, env.searchInputFound, env.searchRaised)
    ensures r.list.Some? && r.maxItems > 0 ==> r.list.value.total <= r.maxItems
  {
    var maxItems := ResolveMaxItems(env.maxItemsEnv, env.maxItemsArg);
    var login := Login.WaitLoop(waits, 0);
    if login.LoggedIn? && env.postLoginOk then
      var searched := SearchApplied(env.searchKeyword, env.searchInputFound, env.searchRaised);
      var cfg := Config(EffectiveMaxItems(maxItems, searched), env.searchKeyword, env.targetUrl);
      var list := ProcessList(cfg, pages);
      if maxItems > 0 then
        SuccessesWithinLimit(cfg, pages, 0, 0);
        AutomationRun(maxItems, login, searched, Some(list))
      else AutomationRun(maxItems, login, searched, Some(list))
    else AutomationRun(maxItems, login, false, None)
  }
}

=== FILE: element.dfy ===
/**
 The clickability check and the selector fallback chains of the worker's
 confirm and save steps.

 The page is not modelled: what a lookup returned, whether an element
 measured as visible, and whether a click went through are observations
 handed in as values. A lookup either finds an element, finds none, or
 raises (a selector the engine rejects, a detached frame).
 */
module Element {
  import opened JsText

  /** What `getBoundingClientRect` and `getComputedStyle` report about a button. */
  datatype ElementState = ElementState(
    width: real,
    height: real,
    visibility: string,
    display: string,
    disabled: bool)

  /**
   The in-page clickability test used before a click on the final confirm
   and save buttons.
   */
  predicate Clickable(e: ElementState) {
    && e.width > 0.0 && e.height > 0.0
    && e.visibility != "hidden"
    && e.display != "none"
    && !e.disabled
  }

  // ---------------------------------------------------------------------
  // Fallback chains

  datatype Lookup = Found | Absent | Raised

  /** One alternative selector: what `page.$` gave, and whether clicking it went through. */
  datatype Probe = Probe(lookup: Lookup, clickOk: bool)

  datatype ChainResult = ClickedAt(index: nat) | Exhausted | RaisedAt(index: nat)

  /** The alternative ends the chain with a click. */
  predicate Wins(p: Probe) {
    p.lookup == Found && p.clickOk
  }

  /**
   The chain moves on past this alternative: nothing matched it, or (when
   a failed click is caught and the loop continues) its click failed.
   */
  predicate PassesOver(p: Probe, continueOnClickFailure: bool) {
    p.lookup == Absent || (continueOnClickFailure && p.lookup == Found && !p.clickOk)
  }

  /**
   The `for (const selector of backupSelectors)` loops: the alternatives are
   tried in order and the first one found and clicked wins. A lookup that
   raises, or a failed click that is not caught inside the loop, leaves the
   loop with an exception.
   */
  function RunChain(probes: seq<Probe>, continueOnClickFailure: bool, from: nat): (r: ChainResult)
    requires from <= |probes|
    decreases |probes| - from
    ensures r.ClickedAt? ==>
      from <= r.index < |probes| && Wins(probes[r.index])
      && forall j :: from <= j < r.index ==> PassesOver(probes[j], continueOnClickFailure)
    ensures r.RaisedAt? ==>
      from <= r.index < |probes|
      && !Wins(probes[r.index]) && !PassesOver(probes[r.index], continueOnClickFailure)
      && forall j :: from <= j < r.index ==> PassesOver(probes[j], continueOnClickFailure)
    ensures r.Exhausted? <==>
      forall j :: from <= j < |probes| ==> PassesOver(probes[j], continueOnClickFailure)
  {
    if from == |probes| then Exhausted
    else
      var p := probes[from];
      if Wins(p) then ClickedAt(from)
      else if PassesOver(p, continueOnClickFailure) then RunChain(probes, continueOnClickFailure, from + 1)
      else RaisedAt(from)
  }

  /**
   A selector of a fallback list. `CssWithText(css, text)` is written
   `css:contains("text")`: that pseudo-class belongs to jQuery, and the
   browser's selector engine rejects it, so looking it up always raises.
   */
  datatype Selector = Css(css: string) | CssWithText(css: string, text: string)

  /**
   What `page.$` gives for each selector of `selectors`: a raise for a
   rejected selector, otherwise what the page showed (`observed[i]`, or
   nothing when no observation is given).
   */
  function Probes(selectors: seq<Selector>, observed: seq<Probe>): (ps: seq<Probe>)
    ensures |ps| == |selectors|
    ensures forall i :: 0 <= i < |ps| && selectors[i].CssWithText? ==> ps[i].lookup == Raised
    ensures forall i :: 0 <= i < |ps| && selectors[i].Css? && i < |observed| ==> ps[i] == observed[i]
    ensures forall i :: 0 <= i < |ps| && selectors[i].Css? && i >= |observed| ==> ps[i].lookup == Absent
  {
    seq(|selectors|, i requires 0 <= i < |selectors| =>
      if selectors[i].CssWithText? then Probe(Raised, false)
      else if i < |observed| then observed[i]
      else Probe(Absent, false))
  }

  /** Alternatives for the dialog's confirm button, in the order they are tried. */
  const ConfirmBackupSelectors: seq<Selector> := [
    Css("a[d_ck=\"submit\"]"),
    CssWithText(".qui_btn.ww_btn_Blue", "\U{786E}\U{5B9A}"),
    Css(".qui_dialog_foot a.qui_btn.ww_btn_Blue"),
    Css("a.qui_btn[href=\"javascript:;\"][d_ck=\"submit\"]")
  ]

  /** Alternatives for the form's save button, in the order they are tried. */
  const SaveBackupSelectors: seq<Selector> := [
    Css("a.js_save_form"),
    Css(".qui_btn.ww_btn_Blue.js_save_form"),
    Css("a[href=\"javascript:;\"].js_save_form"),
    Css(".csPlugin_mod_item a.qui_btn.ww_btn_Blue"),
    CssWithText("a.qui_btn", "\U{4FDD}\U{5B58}")
  ]

  // ---------------------------------------------------------------------
  // Confirming the new group (handleGroupNameInput, after the name is typed)

  datatype ClickPath = Native | Scripted | Backup(index: nat) | ByText

  /** `backups[i]` is what the page showed for the i-th confirm alternative. */
  datatype ConfirmObs = ConfirmObs(
    nameInputFound: bool,
    nameValue: string,
    ownerPanel: Option<string>,
    primary: Lookup,
    primaryState: ElementState,
    nativeClickOk: bool,
    scriptClickOk: bool,
    backups: seq<Probe>)

  /** Whether the dialog was submitted (after which the save step runs), and how. */
  datatype Submission = Submitted(path: ClickPath) | NotSubmitted

  predicate FormFilled(o: ConfirmObs) {
    && o.nameInputFound
    && !Blank(o.nameValue)
    && o.ownerPanel.Some? && !Blank(o.ownerPanel.value)
  }

  /** The first alternative was found and its click went through. */
  predicate FirstBackupWins(backups: seq<Probe>) {
    |backups| > 0 && Wins(backups[0])
  }

  /**
   The confirm alternatives: the second one raises, so the chain either
   clicks the first one or ends without a click.
   */
  lemma ConfirmChainUsesOnlyFirst(observed: seq<Probe>)
    ensures var r := RunChain(Probes(ConfirmBackupSelectors, observed), false, 0);
      (r.ClickedAt? ==> r.index == 0) && (r == ClickedAt(0) <==> FirstBackupWins(observed))
  {
    var ps := Probes(ConfirmBackupSelectors, observed);
    assert ConfirmBackupSelectors[1].CssWithText? && ps[1].lookup == Raised;
    assert ConfirmBackupSelectors[0].Css?;
    assert |observed| > 0 ==> ps[0] == observed[0];
  }

  /**
   The exact-attribute confirm button is clicked when it is present and
   clickable (natively, else by script); only when it is absent are the
   alternatives tried, and a failed click there aborts the step. The second
   alternative raises, so only the first one can ever be used.
   */
  function ConfirmGroup(o: ConfirmObs): (r: Submission)
    ensures r.Submitted? ==> FormFilled(o)
    ensures r == Submitted(Native) <==>
      FormFilled(o) && o.primary == Found && Clickable(o.primaryState) && o.nativeClickOk
    ensures r == Submitted(Scripted) <==>
      FormFilled(o) && o.primary == Found && Clickable(o.primaryState)
      && !o.nativeClickOk && o.scriptClickOk
    ensures r.Submitted? && r.path.Backup? ==> r.path == Backup(0) && o.primary == Absent
    ensures r == Submitted(Backup(0)) <==> FormFilled(o) && o.primary == Absent && FirstBackupWins(o.backups)
    ensures r.Submitted? ==> !r.path.ByText?
    ensures FormFilled(o) && o.primary == Found && !Clickable(o.primaryState) ==> r == NotSubmitted
  {
    if !FormFilled(o) then NotSubmitted
    else
      match o.primary
      case Found =>
        if !Clickable(o.primaryState) then NotSubmitted
        else if o.nativeClickOk then Submitted(Native)
        else if o.scriptClickOk then Submitted(Scripted)
        else NotSubmitted
      case Raised => NotSubmitted
      case Absent =>
        ConfirmChainUsesOnlyFirst(o.backups);
        match RunChain(Probes(ConfirmBackupSelectors, o.backups), false, 0)
        case ClickedAt(i) => Submitted(Backup(i))
        case _ => NotSubmitted
  }

  // ---------------------------------------------------------------------
  // Saving the form (handleSaveButton)

  /** `backups[i]` is what the page showed for the i-th save alternative. */
  datatype SaveObs = SaveObs(
    primary: Lookup,
    primaryState: ElementState,
    nativeClickOk: bool,
    scriptClickOk: bool,
    backups: seq<Probe>,
    textAnchorFound: bool,
    textClickOk: bool)

  datatype SaveResult = Saved(path: ClickPath) | NotSaved

  /** What the save alternatives' lookups give. */
  function SaveProbes(o: SaveObs): seq<Probe> {
    Probes(SaveBackupSelectors, o.backups)
  }

  /** The number of save alternatives before the one that always raises. */
  const SaveCssAlternatives: nat := 4

  /** The body of the outer `try` ended with an exception. */
  predicate SaveRaises(o: SaveObs) {
    || o.primary == Raised
    || (o.primary == Found && Clickable(o.primaryState) && !o.nativeClickOk && !o.scriptClickOk)
    || (o.primary == Absent && RunChain(SaveProbes(o), true, 0).RaisedAt?)
  }

  /** The save alternatives never all pass over: the last one raises. */
  lemma SaveChainNeverExhausted(o: SaveObs)
    ensures !RunChain(SaveProbes(o), true, 0).Exhausted?
  {
    var ps := SaveProbes(o);
    assert SaveBackupSelectors[4].CssWithText? && ps[4].lookup == Raised;
  }

  /** The outcome of the scan of all anchors for the text "保存". */
  function TextScan(o: SaveObs): SaveResult {
    if o.textAnchorFound && o.textClickOk then Saved(ByText) else NotSaved
  }

  /**
   The save button: primary selector, then the alternatives (a failed click
   moves on to the next one), and the scan of all anchors for the text
   "保存" only from the `catch` of an exception. The last alternative always
   raises, so when the primary button is absent and no CSS alternative is
   clicked, the text scan decides.
   */
  function SaveForm(o: SaveObs): (r: SaveResult)
    ensures r == Saved(ByText) <==> SaveRaises(o) && o.textAnchorFound && o.textClickOk
    ensures r == Saved(Native) <==> o.primary == Found && Clickable(o.primaryState) && o.nativeClickOk
    ensures r == Saved(Scripted) <==>
      o.primary == Found && Clickable(o.primaryState) && !o.nativeClickOk && o.scriptClickOk
    ensures r.Saved? && r.path.Backup? ==>
      o.primary == Absent
      && r.path.index < SaveCssAlternatives && r.path.index < |o.backups|
      && Wins(o.backups[r.path.index])
      && forall j :: 0 <= j < r.path.index ==> PassesOver(o.backups[j], true)
    ensures forall j :: 0 <= j < SaveCssAlternatives && j < |o.backups| ==>
      (o.primary == Absent && Wins(o.backups[j]) && (forall i :: 0 <= i < j ==> PassesOver(o.backups[i], true))
       ==> r == Saved(Backup(j)))
    ensures o.primary == Found && !Clickable(o.primaryState) ==> r == NotSaved
    ensures o.primary == Absent && (forall j :: 0 <= j < SaveCssAlternatives ==> PassesOver(SaveProbes(o)[j], true)) ==>
      r == TextScan(o)
  {
    var attempt :=
      match o.primary
      case Found =>
        if !Clickable(o.primaryState) then NotSaved
        else if o.nativeClickOk then Saved(Native)
        else if o.scriptClickOk then Saved(Scripted)
        else NotSaved
      case Raised => NotSaved
      case Absent =>
        match RunChain(SaveProbes(o), true, 0)
        case ClickedAt(i) => Saved(Backup(i))
        case _ => NotSaved;
    SaveChainNeverExhausted(o);
    if SaveRaises(o) then TextScan(o) else attempt
  }
}

=== FILE: group_title.dfy ===
/**
 The text transformation a worker applies to the matched group card
 (`processGroupInfo`): the new group name is the card title with its
 numerically largest ASCII digit run incremented (or "1群" appended when the
 title holds no digit), and the owner is the text after the "群主：" label of
 the admin-info line.

 The reference description of a digit run is `IsRun` (a maximal infix of
 ASCII digits, which is what the regular expression /\d+/g matches); the
 lemmas at the end state the transformation in terms of it, independently
 of how `ProcessTitle` scans the title.
 */
module GroupTitle {
  import opened JsText

  /** Appended to a title that holds no ASCII digit ("1群", "group 1"). */
  const GroupOneSuffix: string := "1\U{7FA4}"

  /** The label in front of the owner's name in the admin-info text ("群主："). */
  const OwnerLabel: string := "\U{7FA4}\U{4E3B}\U{FF1A}"

  datatype Run = Run(start: nat, end: nat)

  /** The result handed on to the re-creation flow: copy1 and copy2 of the source. */
  datatype Copies = Copies(newTitle: string, owner: string)

  // ---------------------------------------------------------------------
  // Digit runs

  /** `s[a..b]` is a maximal run of ASCII digits: one match of /\d+/g. */
  predicate IsRun(s: string, a: nat, b: nat) {
    && a < b <= |s|
    && (forall i :: a <= i < b ==> IsDigit(s[i]))
    && (a == 0 || !IsDigit(s[a - 1]))
    && (b == |s| || !IsDigit(s[b]))
  }

  predicate NoDigits(s: string) {
    forall i :: 0 <= i < |s| ==> !IsDigit(s[i])
  }

  /** Position `from` does not cut a digit run in two. */
  predicate NotInsideRun(s: string, from: nat) {
    from == 0 || from >= |s| || !IsDigit(s[from - 1]) || !IsDigit(s[from])
  }

  /** The first position at or after `i` that does not hold a digit. */
  function RunEnd(s: string, i: nat): (j: nat)
    requires i <= |s|
    decreases |s| - i
    ensures i <= j <= |s|
    ensures forall k :: i <= k < j ==> IsDigit(s[k])
    ensures j == |s| || !IsDigit(s[j])
  {
    if i == |s| || !IsDigit(s[i]) then i else RunEnd(s, i + 1)
  }

  /** The first position of the digit run that holds position `i`. */
  function RunStart(s: string, i: nat): (a: nat)
    requires i < |s| && IsDigit(s[i])
    ensures a <= i
    ensures forall k :: a <= k <= i ==> IsDigit(s[k])
    ensures a == 0 || !IsDigit(s[a - 1])
  {
    if i == 0 || !IsDigit(s[i - 1]) then i else RunStart(s, i - 1)
  }

  /** The matches of /\d+/g in `s[from..]`, left to right. */
  function DigitRuns(s: string, from: nat): (runs: seq<Run>)
    requires from <= |s|
    requires NotInsideRun(s, from)
    decreases |s| - from
    ensures forall k :: 0 <= k < |runs| ==>
      from <= runs[k].start && IsRun(s, runs[k].start, runs[k].end)
    ensures forall j, k :: 0 <= j < k < |runs| ==> runs[j].end <= runs[k].start
    ensures forall a: nat, b: nat :: from <= a && IsRun(s, a, b) ==> Run(a, b) in runs
  {
    if from == |s| then []
    else if !IsDigit(s[from]) then DigitRuns(s, from + 1)
    else
      var e := RunEnd(s, from);
      var rest := DigitRuns(s, e);
      assert forall a: nat, b: nat :: from <= a && IsRun(s, a, b) ==> a == from || e <= a;
      [Run(from, e)] + rest
  }

  /** `parseInt` of the digits `s[a..b]`. */
  function RunValue(s: string, a: nat, b: nat): nat
    requires a <= b <= |s|
    requires forall i :: a <= i < b ==> IsDigit(s[i])
  {
    assert AllDigits(s[a..b]);
    DecimalValue(s[a..b])
  }

  predicate WellFormedRuns(s: string, runs: seq<Run>) {
    forall k :: 0 <= k < |runs| ==> IsRun(s, runs[k].start, runs[k].end)
  }

  function ValueAt(s: string, runs: seq<Run>, k: nat): nat
    requires WellFormedRuns(s, runs) && k < |runs|
  {
    RunValue(s, runs[k].start, runs[k].end)
  }

  // ---------------------------------------------------------------------
  // processGroupInfo

  /** `maxNumber` and the index of `maxNumberInfo` after the loop. */
  datatype Largest = Largest(value: nat, at: Option<nat>)

  /**
   The loop over the first `n` matches: starting from 0, a match replaces
   the best one so far only when its value is strictly larger.
   */
  function FindLargest(s: string, runs: seq<Run>, n: nat): (r: Largest)
    requires WellFormedRuns(s, runs) && n <= |runs|
    ensures forall k :: 0 <= k < n ==> ValueAt(s, runs, k) <= r.value
    ensures r.at.None? ==> r.value == 0
    ensures r.at.Some? ==> r.at.value < n && ValueAt(s, runs, r.at.value) == r.value && r.value > 0
    ensures r.at.Some? ==> forall k :: 0 <= k < r.at.value ==> ValueAt(s, runs, k) < r.value
  {
    if n == 0 then Largest(0, None)
    else
      var acc := FindLargest(s, runs, n - 1);
      var v := ValueAt(s, runs, n - 1);
      if v > acc.value then Largest(v, Some(n - 1)) else acc
  }

  /** copy1: the new group name derived from the matched card title. */
  function ProcessTitle(title: string): string {
    var runs := DigitRuns(title, 0);
    if |runs| == 0 then title + GroupOneSuffix
    else
      var best := FindLargest(title, runs, |runs|);
      match best.at
      case None => title
      case Some(k) =>
        title[..runs[k].start] + NatToDecimal(best.value + 1) + title[runs[k].end..]
  }

  /** copy2: the owner named after the first "群主：" label, trimmed. */
  function ExtractOwner(adminInfo: string): string {
    match IndexOf(adminInfo, OwnerLabel)
    case None => ""
    case Some(i) => Trim(adminInfo[i + |OwnerLabel|..])
  }

  /** `processGroupInfo`: the owner it hands on never has surrounding whitespace. */
  function ProcessGroupInfo(validTitle: string, validAdminInfo: string): (c: Copies)
    ensures Trim(c.owner) == c.owner
  {
    OwnerIsTrimmed(validAdminInfo);
    Copies(ProcessTitle(validTitle), ExtractOwner(validAdminInfo))
  }

  // ---------------------------------------------------------------------
  // The transformation, stated against IsRun

  /** `s[a..b]` is the first of the runs of largest value, and that value is positive. */
  ghost predicate FirstLargestRun(s: string, a: nat, b: nat) {
    && IsRun(s, a, b)
    && RunValue(s, a, b) > 0
    && (forall a': nat, b': nat :: IsRun(s, a', b') ==> RunValue(s, a', b') <= RunValue(s, a, b))
    && (forall a': nat, b': nat :: IsRun(s, a', b') && a' < a ==> RunValue(s, a', b') < RunValue(s, a, b))
  }

  /** Every digit of `s` lies inside a run. */
  lemma DigitInRun(s: string, i: nat)
    requires i < |s| && IsDigit(s[i])
    ensures IsRun(s, RunStart(s, i), RunEnd(s, i))
  {
  }

  lemma {:induction false} RunsFoundIffDigit(title: string)
    ensures |DigitRuns(title, 0)| == 0 <==> NoDigits(title)
  {
    var runs := DigitRuns(title, 0);
    if !NoDigits(title) {
      var i :| 0 <= i < |title| && IsDigit(title[i]);
      DigitInRun(title, i);
      assert Run(RunStart(title, i), RunEnd(title, i)) in runs;
    }
    if |runs| > 0 {
      assert IsDigit(title[runs[0].start]);
    }
  }

  /** A title without any ASCII digit gets "1群" appended, verbatim. */
  lemma TitleWithoutDigits(title: string)
    requires NoDigits(title)
    ensures ProcessTitle(title) == title + GroupOneSuffix
  {
    RunsFoundIffDigit(title);
  }

  /** A title whose digit runs all read as 0 is left exactly as it is. */
  lemma {:induction false} TitleWithOnlyZeros(title: string)
    requires !NoDigits(title)
    requires forall a: nat, b: nat :: IsRun(title, a, b) ==> RunValue(title, a, b) == 0
    ensures ProcessTitle(title) == title
  {
    RunsFoundIffDigit(title);
    var runs := DigitRuns(title, 0);
    assert forall k :: 0 <= k < |runs| ==> ValueAt(title, runs, k) == 0;
    var best := FindLargest(title, runs, |runs|);
    assert best.at.None?;
  }

  /** The position of a run in the list of matches. */
  lemma RunIndex(s: string, a: nat, b: nat) returns (k: nat)
    requires IsRun(s, a, b)
    ensures k < |DigitRuns(s, 0)| && DigitRuns(s, 0)[k] == Run(a, b)
  {
    var runs := DigitRuns(s, 0);
    assert Run(a, b) in runs;
    k :| 0 <= k < |runs| && runs[k] == Run(a, b);
  }

  /** In a list of ordered runs, the loop's pick dominates every run, and strictly every earlier one. */
  lemma PickDominates(s: string, runs: seq<Run>, m: nat, j: nat)
    requires WellFormedRuns(s, runs)
    requires forall i, k :: 0 <= i < k < |runs| ==> runs[i].end <= runs[k].start
    requires FindLargest(s, runs, |runs|).at == Some(m) && j < |runs|
    ensures ValueAt(s, runs, j) <= ValueAt(s, runs, m)
    ensures runs[j].start < runs[m].start ==> ValueAt(s, runs, j) < ValueAt(s, runs, m)
  {
    if j > m {
      assert runs[m].end <= runs[j].start;
    }
  }

  /** The match the loop settles on, when the largest value is positive. */
  ghost function Chosen(title: string): (r: Run)
    requires FindLargest(title, DigitRuns(title, 0), |DigitRuns(title, 0)|).at.Some?
    ensures IsRun(title, r.start, r.end) && RunValue(title, r.start, r.end) > 0
  {
    var runs := DigitRuns(title, 0);
    var m := FindLargest(title, runs, |runs|).at.value;
    assert ValueAt(title, runs, m) > 0;
    runs[m]
  }

  /** The match the loop settles on is at least as large as any run, and larger than every earlier one. */
  lemma {:induction false} ChosenRunDominates(title: string, a': nat, b': nat)
    requires FindLargest(title, DigitRuns(title, 0), |DigitRuns(title, 0)|).at.Some?
    requires IsRun(title, a', b')
    ensures RunValue(title, a', b') <= RunValue(title, Chosen(title).start, Chosen(title).end)
    ensures a' < Chosen(title).start ==>
      RunValue(title, a', b') < RunValue(title, Chosen(title).start, Chosen(title).end)
  {
    var runs := DigitRuns(title, 0);
    var m := FindLargest(title, runs, |runs|).at.value;
    var j := RunIndex(title, a', b');
    PickDominates(title, runs, m, j);
  }

  /** The match the loop settles on is the first run of largest value. */
  lemma ChosenRunIsFirstLargest(title: string)
    requires FindLargest(title, DigitRuns(title, 0), |DigitRuns(title, 0)|).at.Some?
    ensures FirstLargestRun(title, Chosen(title).start, Chosen(title).end)
  {
    var r := Chosen(title);
    forall a': nat, b': nat | IsRun(title, a', b')
      ensures RunValue(title, a', b') <= RunValue(title, r.start, r.end)
    {
      ChosenRunDominates(title, a', b');
    }
    forall a': nat, b': nat | IsRun(title, a', b') && a' < r.start
      ensures RunValue(title, a', b') < RunValue(title, r.start, r.end)
    {
      ChosenRunDominates(title, a', b');
    }
  }

  /** A positive value that no run exceeds, and no earlier run reaches, is the loop's pick. */
  lemma PickIsFirstLargest(s: string, runs: seq<Run>, k: nat)
    requires WellFormedRuns(s, runs) && k < |runs|
    requires ValueAt(s, runs, k) > 0
    requires forall j :: 0 <= j < |runs| ==> ValueAt(s, runs, j) <= ValueAt(s, runs, k)
    requires forall j :: 0 <= j < k ==> ValueAt(s, runs, j) < ValueAt(s, runs, k)
    ensures FindLargest(s, runs, |runs|) == Largest(ValueAt(s, runs, k), Some(k))
  {
    var best := FindLargest(s, runs, |runs|);
    assert best.value >= ValueAt(s, runs, k);
  }

  /** Where the first largest run sits in the list of matches, no match exceeds it and no earlier one reaches it. */
  lemma {:induction false} FirstLargestIndex(title: string, a: nat, b: nat) returns (k: nat)
    requires FirstLargestRun(title, a, b)
    ensures var runs := DigitRuns(title, 0);
      && k < |runs| && runs[k] == Run(a, b)
      && (forall j :: 0 <= j < |runs| ==> ValueAt(title, runs, j) <= ValueAt(title, runs, k))
      && (forall j :: 0 <= j < k ==> ValueAt(title, runs, j) < ValueAt(title, runs, k))
  {
    var runs := DigitRuns(title, 0);
    k := RunIndex(title, a, b);
    forall j | 0 <= j < |runs|
      ensures ValueAt(title, runs, j) <= ValueAt(title, runs, k)
      ensures j < k ==> ValueAt(title, runs, j) < ValueAt(title, runs, k)
    {
      assert IsRun(title, runs[j].start, runs[j].end);
      if j < k {
        assert runs[j].end <= runs[k].start;
      }
    }
  }

  /**
   Otherwise exactly the first run of largest value is replaced by the
   decimal form of that value plus one; the text before and after it is
   kept as it was.
   */
  lemma {:induction false} TitleIncrementsFirstLargest(title: string, a: nat, b: nat)
    requires FirstLargestRun(title, a, b)
    ensures ProcessTitle(title) ==
      title[..a] + NatToDecimal(RunValue(title, a, b) + 1) + title[b..]
  {
    var runs := DigitRuns(title, 0);
    var k := FirstLargestIndex(title, a, b);
    PickIsFirstLargest(title, runs, k);
    TitleAtPick(title, k, RunValue(title, a, b));
  }

  /** `ProcessTitle` rewrites the match the loop picked. */
  lemma TitleAtPick(title: string, k: nat, v: nat)
    requires k < |DigitRuns(title, 0)|
    requires FindLargest(title, DigitRuns(title, 0), |DigitRuns(title, 0)|) == Largest(v, Some(k))
    ensures var r := DigitRuns(title, 0)[k];
      ProcessTitle(title) == title[..r.start] + NatToDecimal(v + 1) + title[r.end..]
  {
  }

  /** When some digit run reads as a positive number, a first largest run exists. */
  lemma {:induction false} FirstLargestRunExists(title: string, a: nat, b: nat)
    requires IsRun(title, a, b) && RunValue(title, a, b) > 0
    ensures exists a': nat, b': nat :: FirstLargestRun(title, a', b')
  {
    var runs := DigitRuns(title, 0);
    var k := RunIndex(title, a, b);
    var best := FindLargest(title, runs, |runs|);
    assert ValueAt(title, runs, k) > 0;
    assert best.at.Some?;
    ChosenRunIsFirstLargest(title);
  }

  // ---------------------------------------------------------------------
  // Owner extraction

  /** Without the "群主：" label the owner is the empty string. */
  lemma OwnerWithoutLabel(adminInfo: string)
    requires !Contains(adminInfo, OwnerLabel)
    ensures ExtractOwner(adminInfo) == ""
  {
  }

  /**
   With the label, the owner is the text after its first occurrence with
   the surrounding whitespace removed.
   */
  lemma {:induction false} OwnerAfterFirstLabel(prefix: string, rest: string)
    requires !Contains(prefix, OwnerLabel)
    ensures ExtractOwner(prefix + OwnerLabel + rest) == Trim(rest)
  {
    var s := prefix + OwnerLabel + rest;
    var p := |prefix|;
    assert s[p..p + 3] == OwnerLabel;
    assert MatchesAt(s, OwnerLabel, p);
    assert s[p] == OwnerLabel[0];
    forall j: nat | j < p
      ensures !MatchesAt(s, OwnerLabel, j)
    {
      if j + 3 <= p {
        assert s[j..j + 3] == prefix[j..j + 3];
        assert !MatchesAt(prefix, OwnerLabel, j);
      } else {
        assert s[j..j + 3][p - j] == s[p];
        assert OwnerLabel[p - j] != OwnerLabel[0];
      }
    }
    var i := IndexOf(s, OwnerLabel).value;
    assert i == p;
    assert s[i + |OwnerLabel|..] == rest;
  }

  /** The owner never starts or ends with whitespace. */
  lemma OwnerIsTrimmed(adminInfo: string)
    ensures Trim(ExtractOwner(adminInfo)) == ExtractOwner(adminInfo)
  {
    match IndexOf(adminInfo, OwnerLabel)
    case None =>
    case Some(i) => TrimIdempotent(adminInfo[i + |OwnerLabel|..]);
  }
}

=== FILE: js_text.dfy ===
/**
 The small part of JavaScript's string and number semantics that the
 automation scripts rely on: `String.prototype.trim`, `includes`,
 `indexOf`, the global `parseInt` (radix left undefined), and the decimal
 rendering of a non-negative integer (`Number.prototype.toString`).

 Strings are sequences of Unicode scalar values. JavaScript indexes UTF-16
 code units; for text in the Basic Multilingual Plane the two agree.
 Numbers are unbounded integers: the loss of precision of `parseInt` above
 2^53 is not modelled.
 */
module JsText {

  datatype Option<T> = None | Some(value: T) {
    function GetOr(default: T): T {
      match this
      case Some(v) => v
      case None => default
    }
  }

  // ---------------------------------------------------------------------
  // Characters

  predicate IsDigit(c: char) {
    '0' <= c <= '9'
  }

  predicate IsHexDigit(c: char) {
    IsDigit(c) || 'a' <= c <= 'f' || 'A' <= c <= 'F'
  }

  /** A digit in the radix `parseInt` settled on (10, or 16 after a `0x` prefix). */
  predicate IsRadixDigit(c: char, radix: nat) {
    if radix == 16 then IsHexDigit(c) else IsDigit(c)
  }

  function DigitValue(c: char): (d: nat)
    requires IsHexDigit(c)
    ensures d < 16
    ensures IsDigit(c) ==> d < 10
  {
    if IsDigit(c) then (c as int) - ('0' as int)
    else if 'a' <= c <= 'f' then (c as int) - ('a' as int) + 10
    else (c as int) - ('A' as int) + 10
  }

  function DigitChar(d: nat): (c: char)
    requires d < 10
    ensures IsDigit(c) && DigitValue(c) == d
  {
    (('0' as int) + d) as char
  }

  /**
   WhiteSpace and LineTerminator code points of ECMAScript: the characters
   that `trim` removes and `parseInt` skips.
   */
  predicate IsJsWhitespace(c: char) {
    || c == '\t' || c == '\n' || c == '\U{000B}' || c == '\U{000C}' || c == '\r'
    || c == ' ' || c == '\U{00A0}' || c == '\U{1680}'
    || ('\U{2000}' <= c <= '\U{200A}')
    || c == '\U{2028}' || c == '\U{2029}' || c == '\U{202F}' || c == '\U{205F}'
    || c == '\U{3000}' || c == '\U{FEFF}'
  }

  predicate AllDigits(s: string) {
    forall i :: 0 <= i < |s| ==> IsDigit(s[i])
  }

  predicate AllWhitespace(s: string) {
    forall i :: 0 <= i < |s| ==> IsJsWhitespace(s[i])
  }

  // ---------------------------------------------------------------------
  // trim

  /** Number of leading whitespace characters. */
  function LeadingSpace(s: string): (k: nat)
    ensures k <= |s|
    ensures forall i :: 0 <= i < k ==> IsJsWhitespace(s[i])
    ensures k < |s| ==> !IsJsWhitespace(s[k])
  {
    if |s| == 0 || !IsJsWhitespace(s[0]) then 0
    else 1 + LeadingSpace(s[1..])
  }

  /** Length of `s` once its trailing whitespace is dropped. */
  function KeptLength(s: string): (n: nat)
    ensures n <= |s|
    ensures forall i :: n <= i < |s| ==> IsJsWhitespace(s[i])
    ensures n > 0 ==> !IsJsWhitespace(s[n - 1])
  {
    if |s| == 0 || !IsJsWhitespace(s[|s| - 1]) then |s|
    else KeptLength(s[..|s| - 1])
  }

  function TrimStart(s: string): string {
    s[LeadingSpace(s)..]
  }

  /**
   `s.trim()`: the longest infix of `s` that neither starts nor ends with
   whitespace, once only whitespace has been cut away on both sides.
   */
  function Trim(s: string): (r: string)
    ensures LeadingSpace(s) + |r| <= |s|
    ensures r == s[LeadingSpace(s)..LeadingSpace(s) + |r|]
    ensures forall i :: LeadingSpace(s) + |r| <= i < |s| ==> IsJsWhitespace(s[i])
    ensures |r| > 0 ==> !IsJsWhitespace(r[0]) && !IsJsWhitespace(r[|r| - 1])
    ensures |r| == 0 <==> AllWhitespace(s)
  {
    var t := TrimStart(s);
    t[..KeptLength(t)]
  }

  /** `s.trim() === ''` */
  predicate Blank(s: string) {
    |Trim(s)| == 0
  }

  lemma {:induction false} TrimIdempotent(s: string)
    ensures Trim(Trim(s)) == Trim(s)
  {
    var r := Trim(s);
    if |r| > 0 {
      assert LeadingSpace(r) == 0;
      assert KeptLength(r) == |r|;
    } else {
      assert r == [];
    }
  }

  lemma {:induction false} TrimOfPadded(pre: string, s: string, post: string)
    requires AllWhitespace(pre) && AllWhitespace(post)
    requires |s| > 0 && !IsJsWhitespace(s[0]) && !IsJsWhitespace(s[|s| - 1])
    ensures Trim(pre + s + post) == s
  {
    var w := pre + s + post;
    LeadingSpaceOfPadded(pre, s + post);
    assert pre + (s + post) == w;
    var t := TrimStart(w);
    assert t == s + post;
    KeptLengthOfPadded(s, post);
  }

  lemma {:induction false} LeadingSpaceOfPadded(pre: string, s: string)
    requires AllWhitespace(pre)
    requires |s| > 0 && !IsJsWhitespace(s[0])
    ensures LeadingSpace(pre + s) == |pre|
  {
    if |pre| > 0 {
      assert (pre + s)[1..] == pre[1..] + s;
      LeadingSpaceOfPadded(pre[1..], s);
    }
  }

  lemma {:induction false} KeptLengthOfPadded(s: string, post: string)
    requires AllWhitespace(post)
    requires |s| > 0 && !IsJsWhitespace(s[|s| - 1])
    ensures KeptLength(s + post) == |s|
  {
    if |post| > 0 {
      var w := s + post;
      assert w[..|w| - 1] == s + post[..|post| - 1];
      KeptLengthOfPadded(s, post[..|post| - 1]);
    }
  }

  // ---------------------------------------------------------------------
  // includes / indexOf

  predicate MatchesAt(s: string, pat: string, i: nat) {
    i + |pat| <= |s| && s[i..i + |pat|] == pat
  }

  /** `s.includes(pat)` */
  predicate Contains(s: string, pat: string) {
    exists i: nat :: i <= |s| && MatchesAt(s, pat, i)
  }

  /** `s.indexOf(pat, from)`, with `None` for -1. */
  function IndexOfFrom(s: string, pat: string, from: nat): (r: Option<nat>)
    decreases |s| - from
    ensures r.Some? ==> from <= r.value && MatchesAt(s, pat, r.value)
    ensures r.Some? ==> forall j: nat :: from <= j < r.value ==> !MatchesAt(s, pat, j)
    ensures r.None? ==> forall j: nat :: from <= j ==> !MatchesAt(s, pat, j)
  {
    if from + |pat| > |s| then None
    else if MatchesAt(s, pat, from) then Some(from)
    else IndexOfFrom(s, pat, from + 1)
  }

  /** `s.indexOf(pat)`: the first occurrence, or `None` when there is none. */
  function IndexOf(s: string, pat: string): (r: Option<nat>)
    ensures r.Some? <==> Contains(s, pat)
    ensures r.Some? ==> MatchesAt(s, pat, r.value)
    ensures r.Some? ==> forall j: nat :: j < r.value ==> !MatchesAt(s, pat, j)
  {
    IndexOfFrom(s, pat, 0)
  }

  lemma ContainsInfix(pre: string, pat: string, post: string)
    ensures Contains(pre + pat + post, pat)
  {
    var s := pre + pat + post;
    assert s[|pre|..|pre| + |pat|] == pat;
    assert MatchesAt(s, pat, |pre|);
  }

  // ---------------------------------------------------------------------
  // Numerals

  predicate AllRadixDigits(z: string, radix: nat) {
    forall i :: 0 <= i < |z| ==> IsRadixDigit(z[i], radix)
  }

  /** Value of a numeral in radix 10 or 16, most significant digit first. */
  function NumeralValue(z: string, radix: nat): nat
    requires radix == 10 || radix == 16
    requires AllRadixDigits(z, radix)
    decreases |z|
  {
    if |z| == 0 then 0
    else NumeralValue(z[..|z| - 1], radix) * radix + DigitValue(z[|z| - 1])
  }

  /** Value of a run of ASCII digits, as `parseInt` reads it. */
  function DecimalValue(z: string): nat
    requires AllDigits(z)
    decreases |z|
  {
    if |z| == 0 then 0
    else DecimalValue(z[..|z| - 1]) * 10 + DigitValue(z[|z| - 1])
  }

  lemma {:induction false} DecimalIsNumeral(z: string)
    requires AllDigits(z)
    ensures AllRadixDigits(z, 10) && NumeralValue(z, 10) == DecimalValue(z)
  {
    if |z| > 0 {
      DecimalIsNumeral(z[..|z| - 1]);
    }
  }

  /** A numeral as `toString` writes it: digits, no superfluous leading zero. */
  predicate Canonical(z: string) {
    |z| >= 1 && AllDigits(z) && (z[0] == '0' ==> |z| == 1)
  }

  /** `n.toString()` for a non-negative integer. */
  function NatToDecimal(n: nat): (z: string)
    ensures Canonical(z)
    ensures DecimalValue(z) == n
  {
    if n < 10 then
      var z := [DigitChar(n)];
      assert z[..0] == [];
      z
    else
      var high := NatToDecimal(n / 10);
      var z := high + [DigitChar(n % 10)];
      assert z[..|z| - 1] == high;
      z
  }


  lemma {:induction false} LeadingDigitBound(z: string)
    requires |z| >= 1 && AllDigits(z)
    ensures DecimalValue(z) >= DigitValue(z[0])
  {
    if |z| > 1 {
      var high := z[..|z| - 1];
      assert high[0] == z[0];
      LeadingDigitBound(high);
    }
  }

  /** Rendering a numeral's value gives back the canonical numeral. */
  lemma {:induction false} DecimalRoundTrip(z: string)
    requires Canonical(z)
    ensures NatToDecimal(DecimalValue(z)) == z
  {
    var n := DecimalValue(z);
    if |z| == 1 {
      assert z[..|z| - 1] == [];
      assert DecimalValue(z[..|z| - 1]) == 0;
      assert n == DigitValue(z[0]);
      assert NatToDecimal(n) == [DigitChar(n)];
    } else {
      var high := z[..|z| - 1];
      var last := z[|z| - 1];
      assert high[0] == z[0];
      assert Canonical(high);
      LeadingDigitBound(high);
      assert n == DecimalValue(high) * 10 + DigitValue(last);
      assert n / 10 == DecimalValue(high) && n % 10 == DigitValue(last);
      DecimalRoundTrip(high);
      assert z == high + [last];
    }
  }

  // ---------------------------------------------------------------------
  // parseInt

  /** Number of leading characters of `z` that are digits in `radix`. */
  function NumeralLength(z: string, radix: nat): (k: nat)
    ensures k <= |z|
    ensures forall i :: 0 <= i < k ==> IsRadixDigit(z[i], radix)
    ensures k < |z| ==> !IsRadixDigit(z[k], radix)
  {
    if |z| == 0 || !IsRadixDigit(z[0], radix) then 0
    else 1 + NumeralLength(z[1..], radix)
  }

  predicate HasHexPrefix(u: string) {
    |u| >= 2 && u[0] == '0' && (u[1] == 'x' || u[1] == 'X')
  }

  /**
   The global `parseInt(s)` with no radix: skip leading whitespace, read an
   optional sign, switch to radix 16 after `0x`/`0X`, then read the longest
   run of digits. `None` stands for NaN; -0 is returned as 0.
   */
  function ParseInt(s: string): (r: Option<int>)
    ensures r.None? <==>
      (var u := UnsignedPart(s);
       NumeralLength(if HasHexPrefix(u) then u[2..] else u, if HasHexPrefix(u) then 16 else 10) == 0)
  {
    ParseSigned(TrimStart(s))
  }

  /** `parseInt` once the leading whitespace is gone. */
  function ParseSigned(t: string): Option<int> {
    var negative := |t| > 0 && t[0] == '-';
    var u := Unsigned(t);
    var radix := if HasHexPrefix(u) then 16 else 10;
    var body := if HasHexPrefix(u) then u[2..] else u;
    var z := body[..NumeralLength(body, radix)];
    if |z| == 0 then None
    else
      var v: int := NumeralValue(z, radix);
      Some(if negative then -v else v)
  }

  /** What follows the optional sign. */
  function Unsigned(t: string): string {
    if |t| > 0 && (t[0] == '-' || t[0] == '+') then t[1..] else t
  }

  /** What follows the leading whitespace and the optional sign. */
  function UnsignedPart(s: string): string {
    Unsigned(TrimStart(s))
  }

  /**
   A run of decimal digits followed by anything that is not a digit parses
   to the run's value.
   */
  lemma {:induction false} ParseIntDigits(z: string, rest: string)
    requires |z| >= 1 && AllDigits(z)
    requires |rest| == 0 || !IsDigit(rest[0])
    requires !(z == "0" && |rest| > 0 && (rest[0] == 'x' || rest[0] == 'X'))
    ensures ParseInt(z + rest) == Some(DecimalValue(z) as int)
  {
    var s := z + rest;
    assert LeadingSpace(s) == 0 by {
      assert !IsJsWhitespace(s[0]);
    }
    assert TrimStart(s) == s;
    assert UnsignedPart(s) == s;
    assert !HasHexPrefix(s);
    NumeralLengthOfPrefix(z, rest, 10);
    assert s[..|z|] == z;
    DecimalIsNumeral(z);
  }

  /** The same run after a minus sign parses to the negated value. */
  lemma {:induction false} ParseIntNegativeDigits(z: string, rest: string)
    requires |z| >= 1 && AllDigits(z)
    requires |rest| == 0 || !IsDigit(rest[0])
    requires !(z == "0" && |rest| > 0 && (rest[0] == 'x' || rest[0] == 'X'))
    ensures ParseInt("-" + z + rest) == Some(-(DecimalValue(z) as int))
  {
    var s := "-" + z + rest;
    assert LeadingSpace(s) == 0 by {
      assert !IsJsWhitespace(s[0]);
    }
    assert TrimStart(s) == s;
    var u := UnsignedPart(s);
    assert u == z + rest;
    assert !HasHexPrefix(u);
    NumeralLengthOfPrefix(z, rest, 10);
    assert u[..|z|] == z;
    DecimalIsNumeral(z);
  }

  lemma {:induction false} NumeralLengthOfPrefix(z: string, rest: string, radix: nat)
    requires AllRadixDigits(z, radix)
    requires |rest| == 0 || !IsRadixDigit(rest[0], radix)
    ensures NumeralLength(z + rest, radix) == |z|
  {
    if |z| > 0 {
      assert (z + rest)[1..] == z[1..] + rest;
      NumeralLengthOfPrefix(z[1..], rest, radix);
    }
  }

  /** Leading whitespace does not change what `parseInt` reads. */
  lemma ParseIntSkipsWhitespace(ws: string, s: string)
    requires AllWhitespace(ws)
    ensures ParseInt(ws + s) == ParseInt(s)
  {
    LeadingSpaceOfPrefix(ws, s);
    assert TrimStart(ws + s) == TrimStart(s);
  }

  lemma {:induction false} LeadingSpaceOfPrefix(ws: string, s: string)
    requires AllWhitespace(ws)
    ensures LeadingSpace(ws + s) == |ws| + LeadingSpace(s)
  {
    if |ws| > 0 {
      assert IsJsWhitespace((ws + s)[0]);
      assert (ws + s)[1..] == ws[1..] + s;
      LeadingSpaceOfPrefix(ws[1..], s);
    } else {
      assert ws + s == s;
    }
  }

  /** A decimal run after leading whitespace parses to the run's value. */
  lemma ParseIntPaddedDigits(ws: string, z: string, rest: string)
    requires AllWhitespace(ws)
    requires |z| >= 1 && AllDigits(z)
    requires |rest| == 0 || !IsDigit(rest[0])
    requires !(z == "0" && |rest| > 0 && (rest[0] == 'x' || rest[0] == 'X'))
    ensures ParseInt(ws + z + rest) == Some(DecimalValue(z) as int)
  {
    var v := z + rest;
    ParseIntDigits(z, rest);
    ParseIntSkipsWhitespace(ws, v);
    ConcatAssoc(ws, z, rest);
  }

  lemma ConcatAssoc(a: string, b: string, c: string)
    ensures a + (b + c) == a + b + c
  {
  }

  /** A plus sign before the numeral changes nothing. */
  lemma ParseIntPlusSign(s: string)
    requires |s| == 0 || (!IsJsWhitespace(s[0]) && s[0] != '+' && s[0] != '-')
    ensures ParseInt("+" + s) == ParseInt(s)
  {
    var t := "+" + s;
    assert LeadingSpace(t) == 0 by {
      assert !IsJsWhitespace(t[0]);
    }
    assert TrimStart(t) == t;
    assert UnsignedPart(t) == s;
    assert TrimStart(s) == s;
  }

  function Pow16(k: nat): nat {
    if k == 0 then 1 else 16 * Pow16(k - 1)
  }

  /** The value of a hexadecimal numeral, each digit weighted by its place. */
  function HexValue(z: string): nat
    requires AllRadixDigits(z, 16)
    decreases |z|
  {
    if |z| == 0 then 0 else DigitValue(z[0]) * Pow16(|z| - 1) + HexValue(z[1..])
  }

  /** Appending a digit shifts the value one place up. */
  lemma {:induction false} HexValueAppend(z: string, c: char)
    requires AllRadixDigits(z, 16) && IsHexDigit(c)
    ensures AllRadixDigits(z + [c], 16)
    ensures HexValue(z + [c]) == HexValue(z) * 16 + DigitValue(c)
    decreases |z|
  {
    var w := z + [c];
    assert AllRadixDigits(w, 16);
    if |z| > 0 {
      assert w[1..] == z[1..] + [c];
      HexValueAppend(z[1..], c);
      var d, p, h := DigitValue(z[0]), Pow16(|z| - 1), HexValue(z[1..]);
      assert w[0] == z[0];
      assert HexValue(z) == d * p + h;
      assert HexValue(w) == d * (16 * p) + (h * 16 + DigitValue(c));
      MulShift(d, p);
    } else {
      assert w[1..] == [];
    }
  }

  lemma MulShift(d: nat, p: nat)
    ensures d * (16 * p) == (d * p) * 16
  {
  }

  lemma {:induction false} NumeralIsHexValue(z: string)
    requires AllRadixDigits(z, 16)
    ensures NumeralValue(z, 16) == HexValue(z)
    decreases |z|
  {
    if |z| > 0 {
      var high := z[..|z| - 1];
      NumeralIsHexValue(high);
      HexValueAppend(high, z[|z| - 1]);
      assert high + [z[|z| - 1]] == z;
    }
  }

  /**
   After `0x` or `0X` the longest run of hexadecimal digits is read in
   radix 16.
   */
  lemma {:induction false} ParseIntHex(x: char, z: string, rest: string)
    requires x == 'x' || x == 'X'
    requires |z| >= 1 && AllRadixDigits(z, 16)
    requires |rest| == 0 || !IsHexDigit(rest[0])
    ensures ParseInt(['0', x] + z + rest) == Some(HexValue(z) as int)
  {
    var s := ['0', x] + z + rest;
    assert LeadingSpace(s) == 0 by {
      assert !IsJsWhitespace(s[0]);
    }
    assert TrimStart(s) == s;
    assert UnsignedPart(s) == s;
    assert HasHexPrefix(s);
    assert s[2..] == z + rest;
    NumeralLengthOfPrefix(z, rest, 16);
    assert (z + rest)[..|z|] == z;
    NumeralIsHexValue(z);
  }
}

=== FILE: login.dfy ===
/**
 The coordinator's wait for a QR-code login: each pass waits for a
 navigation (or its 60-second timeout), looks at the page URL, and may
 reload the login page. The URL seen and whether a reload went through are
 observations handed in by the caller.
 */
module Login {
  import opened JsText

  /** A page URL containing this is the workbench: the login is done. */
  const WorkbenchMarker: string := "work.weixin.qq.com/wework_admin/frame"
  const Domain: string := "work.weixin.qq.com"
  const LoginWord: string := "login"
  const MaxRefreshAttempts: nat := 10

  /**
   One pass of the loop: a navigation happened and the page showed `url`,
   or the wait timed out with the page at `url`; in the second case a
   reload may follow, and if it raises, the URL is read once more.
   */
  datatype WaitObs =
    | Navigated(url: string)
    | TimedOut(url: string, reloadOk: bool, urlAfterError: string)

  predicate AtWorkbench(url: string) {
    Contains(url, WorkbenchMarker)
  }

  /** Signed in but not yet at the workbench (a verification page, say). */
  predicate AwaitingVerification(url: string) {
    Contains(url, Domain) && !Contains(url, LoginWord)
  }

  /** The pass ends the wait with a successful login. */
  predicate SeesWorkbench(o: WaitObs) {
    match o
    case Navigated(url) => AtWorkbench(url)
    case TimedOut(url, reloadOk, after) =>
      || AtWorkbench(url)
      || (!AwaitingVerification(url) && !reloadOk && AtWorkbench(after))
  }

  /**
   How much a pass that does not end the wait adds to `refreshCount`: a
   timeout on the login page counts one refresh, and a reload that raises
   counts a second one in the outer `catch`.
   */
  function Weight(o: WaitObs): nat {
    match o
    case Navigated(_) => 0
    case TimedOut(url, reloadOk, _) =>
      if AtWorkbench(url) || AwaitingVerification(url) then 0
      else if reloadOk then 1
      else 2
  }

  function Min(a: nat, b: nat): nat {
    if a <= b then a else b
  }

  /** After one pass: logged in, the new refresh count, and the reloads issued. */
  datatype Step = Step(loggedIn: bool, refreshCount: nat, reloads: nat)

  /** One pass of the `while (!loginSuccess && refreshCount < maxRefreshAttempts)` loop. */
  function LoginStep(o: WaitObs, refreshCount: nat): (s: Step)
    requires refreshCount < MaxRefreshAttempts
    ensures s.loggedIn <==> SeesWorkbench(o)
    ensures !s.loggedIn ==> s.refreshCount == refreshCount + Weight(o)
    ensures s.refreshCount <= refreshCount + 2
    ensures refreshCount + s.reloads <= Min(s.refreshCount, MaxRefreshAttempts)
  {
    match o
    case Navigated(url) => Step(AtWorkbench(url), refreshCount, 0)
    case TimedOut(url, reloadOk, after) =>
      if AtWorkbench(url) then Step(true, refreshCount, 0)
      else if AwaitingVerification(url) then Step(false, refreshCount, 0)
      else if reloadOk then Step(false, refreshCount + 1, 1)
      else if AtWorkbench(after) then Step(true, refreshCount + 1, 1)
      else
        // the catch counts again and reloads once more only below the limit
        Step(false, refreshCount + 2, if refreshCount + 2 < MaxRefreshAttempts then 2 else 1)
  }

  datatype LoginResult =
    | LoggedIn(checks: nat, refreshCount: nat, reloads: nat)
    | GaveUp(passes: nat, refreshCount: nat, reloads: nat)
    | StillWaiting(refreshCount: nat, reloads: nat)

  /** The refresh counts added by the passes `obs[..k]`. */
  function WeightSum(obs: seq<WaitObs>, k: nat): nat
    requires k <= |obs|
  {
    if k == 0 then 0 else WeightSum(obs, k - 1) + Weight(obs[k - 1])
  }

  /**
   The login loop over the passes observed. `StillWaiting` means the
   observations ran out while the loop would go on; `GaveUp` is the state in
   which the source throws "login failed", after `passes` passes.
   */
  function WaitLoop(obs: seq<WaitObs>, refreshCount: nat): (r: LoginResult)
    requires refreshCount <= MaxRefreshAttempts
    decreases |obs|
    ensures r.refreshCount >= refreshCount
    ensures refreshCount + r.reloads <= Min(r.refreshCount, MaxRefreshAttempts)
    ensures r.GaveUp? ==> MaxRefreshAttempts <= r.refreshCount <= MaxRefreshAttempts + 1
    ensures !r.GaveUp? ==> r.refreshCount <= MaxRefreshAttempts
    ensures r.LoggedIn? ==>
      r.checks < |obs| && SeesWorkbench(obs[r.checks])
      && forall j :: 0 <= j < r.checks ==> !SeesWorkbench(obs[j])
    ensures r.StillWaiting? ==>
      r.refreshCount < MaxRefreshAttempts && forall j :: 0 <= j < |obs| ==> !SeesWorkbench(obs[j])
    ensures r.GaveUp? ==>
      r.passes <= |obs| && (refreshCount < MaxRefreshAttempts ==> r.passes > 0)
      && forall j :: 0 <= j < r.passes ==> !SeesWorkbench(obs[j])
  {
    if refreshCount >= MaxRefreshAttempts then GaveUp(0, refreshCount, 0)
    else if |obs| == 0 then StillWaiting(refreshCount, 0)
    else
      var s := LoginStep(obs[0], refreshCount);
      if s.loggedIn then LoggedIn(0, s.refreshCount, s.reloads)
      else if s.refreshCount >= MaxRefreshAttempts then GaveUp(1, s.refreshCount, s.reloads)
      else
        var rest := WaitLoop(obs[1..], s.refreshCount);
        match rest
        case LoggedIn(k, c, n) => LoggedIn(k + 1, c, n + s.reloads)
        case GaveUp(p, c, n) => GaveUp(p + 1, c, n + s.reloads)
        case StillWaiting(c, n) => StillWaiting(c, n + s.reloads)
  }

  /**
   Giving up happens at the first pass whose weights bring the count to the
   limit: the count is what the passes made added, and it stayed below the
   limit after each earlier pass.
   */
  lemma {:induction false} RefreshCountIsWeightSum(obs: seq<WaitObs>, refreshCount: nat)
    requires refreshCount < MaxRefreshAttempts
    ensures var r := WaitLoop(obs, refreshCount);
      r.GaveUp? ==>
        && r.refreshCount == refreshCount + WeightSum(obs, r.passes)
        && forall j :: 1 <= j < r.passes ==> refreshCount + WeightSum(obs, j) < MaxRefreshAttempts
  {
    var r := WaitLoop(obs, refreshCount);
    if |obs| > 0 && r.GaveUp? {
      var s := LoginStep(obs[0], refreshCount);
      assert WeightSum(obs, 1) == Weight(obs[0]);
      if s.refreshCount < MaxRefreshAttempts {
        var rest := obs[1..];
        RefreshCountIsWeightSum(rest, s.refreshCount);
        var q := WaitLoop(rest, s.refreshCount);
        WeightSumShift(obs, q.passes);
        forall j | 1 <= j < r.passes
          ensures refreshCount + WeightSum(obs, j) < MaxRefreshAttempts
        {
          WeightSumShift(obs, j - 1);
        }
      }
    }
  }

  /**
   A login happens only while the loop still runs: the count was below the
   limit before every pass up to and including the one that saw the
   workbench.
   */
  lemma {:induction false} LoginBeforeLimit(obs: seq<WaitObs>, refreshCount: nat)
    requires refreshCount < MaxRefreshAttempts
    ensures var r := WaitLoop(obs, refreshCount);
      r.LoggedIn? ==>
        forall j :: 0 <= j <= r.checks ==> refreshCount + WeightSum(obs, j) < MaxRefreshAttempts
  {
    var r := WaitLoop(obs, refreshCount);
    if |obs| > 0 && r.LoggedIn? {
      var s := LoginStep(obs[0], refreshCount);
      if !s.loggedIn {
        var rest := obs[1..];
        LoginBeforeLimit(rest, s.refreshCount);
        forall j | 1 <= j <= r.checks
          ensures refreshCount + WeightSum(obs, j) < MaxRefreshAttempts
        {
          WeightSumShift(obs, j - 1);
        }
      }
    }
  }

  /** While the loop waits on, the count is what all the passes added. */
  lemma {:induction false} WaitingCountIsWeightSum(obs: seq<WaitObs>, refreshCount: nat)
    requires refreshCount < MaxRefreshAttempts
    ensures var r := WaitLoop(obs, refreshCount);
      r.StillWaiting? ==> r.refreshCount == refreshCount + WeightSum(obs, |obs|)
  {
    var r := WaitLoop(obs, refreshCount);
    if |obs| > 0 && r.StillWaiting? {
      var s := LoginStep(obs[0], refreshCount);
      var rest := obs[1..];
      WaitingCountIsWeightSum(rest, s.refreshCount);
      WeightSumShift(obs, |rest|);
    }
  }

  lemma {:induction false} WeightSumShift(obs: seq<WaitObs>, k: nat)
    requires |obs| > 0 && k < |obs|
    ensures WeightSum(obs, k + 1) == Weight(obs[0]) + WeightSum(obs[1..], k)
  {
    if k > 0 {
      WeightSumShift(obs, k - 1);
      assert obs[1..][k - 1] == obs[k];
    }
  }

  /** Navigations that do not reach the workbench never use up the refreshes. */
  lemma {:induction false} NavigationsNeverGiveUp(obs: seq<WaitObs>, refreshCount: nat)
    requires refreshCount < MaxRefreshAttempts
    requires forall j :: 0 <= j < |obs| ==> obs[j].Navigated? && !AtWorkbench(obs[j].url)
    ensures WaitLoop(obs, refreshCount) == StillWaiting(refreshCount, 0)
  {
    if |obs| > 0 {
      NavigationsNeverGiveUp(obs[1..], refreshCount);
    }
  }

  /**
   Five timeouts on the login page whose reloads all raise exhaust the ten
   refresh attempts, with nine reloads issued.
   */
  lemma FailingReloadsGiveUpAfterFive(u: string)
    requires !AtWorkbench(u) && !AwaitingVerification(u)
    ensures var f := TimedOut(u, false, u);
      WaitLoop([f, f, f, f, f], 0) == GaveUp(5, 10, 9)
  {
    var f := TimedOut(u, false, u);
    assert WaitLoop([f], 8) == GaveUp(1, 10, 1);
    assert [f, f][1..] == [f];
    assert WaitLoop([f, f], 6) == GaveUp(2, 10, 3);
    assert [f, f, f][1..] == [f, f];
    assert WaitLoop([f, f, f], 4) == GaveUp(3, 10, 5);
    assert [f, f, f, f][1..] == [f, f, f];
    assert WaitLoop([f, f, f, f], 2) == GaveUp(4, 10, 7);
    assert [f, f, f, f, f][1..] == [f, f, f, f];
  }

  /**
   Nine timeouts with good reloads followed by one whose reload raises leave
   the counter at eleven, past the limit of ten.
   */
  lemma RefreshCountCanReachEleven(u: string)
    requires !AtWorkbench(u) && !AwaitingVerification(u)
    ensures WaitLoop([TimedOut(u, false, u)], 9) == GaveUp(1, 11, 1)
  {
  }
}

=== FILE: worker.dfy ===
/**
 The worker process: pick the card to rewrite among the hovered group
 entries (`extractValidGroupInfo`), clear the existing entries
 (`performDeleteOperations`), and decide the exit code (`workerMain`).

 Each hover, each query of the delete buttons and each navigation is an
 observation handed in by the caller, in the order the worker makes it.
 */
module Worker {
  import opened JsText
  import GroupTitle

  // ---------------------------------------------------------------------
  // Candidate selection (extractValidGroupInfo)

  /**
   What one pass of the loop over the group entries saw: the entry was gone
   or detached (or an exception was caught before the card was read), or
   the hover card showed a title and an admin-info line ('' when the card
   element was missing).
   */
  datatype HoverObs = Skipped | Card(title: string, adminInfo: string)

  /**
   The outcome of the extraction: no entries at all (`validTitle: ''`), no
   card with a marker (`validTitle: null`), or the selected card.
   */
  datatype Selection = NoElements | NoMatch | Matched(title: string, adminInfo: string)

  /** The title is non-empty and mentions "HK" or "DD". */
  predicate HasMarker(title: string) {
    title != "" && (Contains(title, "HK") || Contains(title, "DD"))
  }

  predicate IsMatch(o: HoverObs) {
    o.Card? && HasMarker(o.title)
  }

  /** Entry `i` is a match and no later entry is. */
  predicate IsLastMatch(obs: seq<HoverObs>, i: nat) {
    i < |obs| && IsMatch(obs[i]) && forall j :: i < j < |obs| ==> !IsMatch(obs[j])
  }

  /** The loop's variables after the entries seen so far. */
  datatype ScanState = ScanState(hasValid: bool, validTitle: string, validAdminInfo: string)

  /**
   The loop runs over every entry without breaking: every match overwrites
   the title and admin info kept so far.
   */
  function ScanCards(obs: seq<HoverObs>): (st: ScanState)
    ensures st.hasValid <==> exists i :: 0 <= i < |obs| && IsMatch(obs[i])
  {
    if |obs| == 0 then ScanState(false, "", "")
    else
      var before := ScanCards(obs[..|obs| - 1]);
      var o := obs[|obs| - 1];
      assert forall i :: 0 <= i < |obs| - 1 ==> obs[..|obs| - 1][i] == obs[i];
      if IsMatch(o) then ScanState(true, o.title, o.adminInfo) else before
  }

  lemma {:induction false} ScanCardsKeepsLastMatch(obs: seq<HoverObs>)
    ensures ScanCards(obs).hasValid ==>
      exists i: nat :: IsLastMatch(obs, i)
        && obs[i].title == ScanCards(obs).validTitle
        && obs[i].adminInfo == ScanCards(obs).validAdminInfo
  {
    if |obs| > 0 && ScanCards(obs).hasValid {
      var n := |obs| - 1;
      if IsMatch(obs[n]) {
        assert IsLastMatch(obs, n);
      } else {
        var prefix := obs[..n];
        ScanCardsKeepsLastMatch(prefix);
        var i: nat :| IsLastMatch(prefix, i)
          && prefix[i].title == ScanCards(prefix).validTitle
          && prefix[i].adminInfo == ScanCards(prefix).validAdminInfo;
        assert IsLastMatch(obs, i);
      }
    }
  }

  /** `extractValidGroupInfo` over the hover observations of the entries found. */
  function SelectCandidate(obs: seq<HoverObs>): (r: Selection)
    ensures r == NoElements <==> |obs| == 0
    ensures r == NoMatch <==> |obs| > 0 && forall i :: 0 <= i < |obs| ==> !IsMatch(obs[i])
    ensures r.Matched? ==>
      exists i: nat :: IsLastMatch(obs, i) && obs[i] == Card(r.title, r.adminInfo)
  {
    if |obs| == 0 then NoElements
    else
      var st := ScanCards(obs);
      ScanCardsKeepsLastMatch(obs);
      if st.hasValid then Matched(st.validTitle, st.validAdminInfo) else NoMatch
  }

  // ---------------------------------------------------------------------
  // Delete loop (performDeleteOperations)

  /**
   One pass of the loop: how many delete buttons the query found, whether
   scrolling to and clicking the first one went through, and whether the
   count then dropped to one less within the timeout.
   */
  datatype DeleteStep = DeleteStep(buttons: nat, clicked: bool, countDropped: bool)

  /** Clicks made (`deleteCount`), passes consumed, and whether the loop ended. */
  datatype DeleteRun = DeleteRun(clicks: nat, passes: nat, finished: bool)

  predicate Continues(st: DeleteStep) {
    st.buttons > 0 && st.clicked && st.countDropped
  }

  /** The last pass's own click, when it made one. */
  function FinalClick(st: DeleteStep): nat {
    if st.buttons > 0 && st.clicked then 1 else 0
  }

  /**
   The loop stops at the first pass that finds no button, fails to click,
   or does not see the count drop; a pass that clicked counts even when the
   drop is not observed. If the observations run out first, the run is
   reported as unfinished.
   */
  function DeleteLoop(trace: seq<DeleteStep>): (r: DeleteRun)
    ensures r.passes <= |trace|
    ensures forall j :: 0 <= j < r.passes - 1 ==> Continues(trace[j])
    ensures r.finished ==>
      r.passes >= 1 && !Continues(trace[r.passes - 1])
      && r.clicks == r.passes - 1 + FinalClick(trace[r.passes - 1])
    ensures !r.finished ==>
      r.passes == |trace| && r.clicks == r.passes
      && forall j :: 0 <= j < |trace| ==> Continues(trace[j])
  {
    if |trace| == 0 then DeleteRun(0, 0, false)
    else
      var st := trace[0];
      if !Continues(st) then DeleteRun(FinalClick(st), 1, true)
      else
        var rest := DeleteLoop(trace[1..]);
        DeleteRun(rest.clicks + 1, rest.passes + 1, rest.finished)
  }

  /**
   The page behaves as the loop expects: whenever a click removed a button
   (the count was seen to drop), the next query finds exactly that many.
   */
  predicate Coherent(trace: seq<DeleteStep>) {
    forall j :: 0 <= j < |trace| - 1 && Continues(trace[j]) ==>
      trace[j + 1].buttons == trace[j].buttons - 1
  }

  /**
   On a coherent page the loop clicks at most as many times as there were
   buttons at the start, and it ends once it has seen one more pass than
   that.
   */
  lemma {:induction false} DeleteLoopBounded(trace: seq<DeleteStep>)
    requires |trace| > 0 && Coherent(trace)
    ensures DeleteLoop(trace).clicks <= trace[0].buttons
    ensures |trace| > trace[0].buttons ==> DeleteLoop(trace).finished
  {
    if Continues(trace[0]) && |trace| > 1 {
      var rest := trace[1..];
      assert rest[0].buttons == trace[0].buttons - 1;
      assert Coherent(rest) by {
        forall j | 0 <= j < |rest| - 1 && Continues(rest[j])
          ensures rest[j + 1].buttons == rest[j].buttons - 1
        {
          assert rest[j] == trace[j + 1] && rest[j + 1] == trace[j + 2];
        }
      }
      DeleteLoopBounded(rest);
    }
  }

  // ---------------------------------------------------------------------
  // The worker process (workerMain)

  /**
   What the worker saw: whether launching the browser and restoring the
   session went through, the URL it landed on after opening the edit link
   (`None` when that navigation raised), the hover observations of the
   group entries, and the passes of the delete loop.
   */
  datatype WorkerObs = WorkerObs(
    setupOk: bool,
    landedUrl: Option<string>,
    cards: seq<HoverObs>,
    deletes: seq<DeleteStep>)

  datatype EditOutcome =
    | NotOpened
    | NoCandidates
    | NotApplicable
    | Rewritten(copies: GroupTitle.Copies, deleted: DeleteRun)

  datatype WorkerReport = WorkerReport(exitCode: int, outcome: EditOutcome)

  const SuccessCode: int := 0
  const FailureCode: int := 1

  /** The edit page was opened and the session was still valid. */
  predicate EditPageOpened(editUrl: string, o: WorkerObs) {
    && o.setupOk
    && !Blank(editUrl)
    && o.landedUrl.Some?
    && !Contains(o.landedUrl.value, "login")
  }

  /** `processEditPageDirectly`: its own verdict is dropped by the caller. */
  function ProcessEditPage(o: WorkerObs): (e: EditOutcome)
    ensures e != NotOpened
  {
    match SelectCandidate(o.cards)
    case NoElements => NoCandidates
    case NoMatch => NotApplicable
    case Matched(title, admin) =>
      Rewritten(GroupTitle.ProcessGroupInfo(title, admin), DeleteLoop(o.deletes))
  }

  /**
   `workerMain`: exit 1 for a failed setup, a blank edit link or a landing
   page that is still the login page; exit 0 once the edit page was
   processed, whatever the extraction found.
   */
  function WorkerMain(editUrl: string, o: WorkerObs): (r: WorkerReport)
    ensures r.exitCode == SuccessCode || r.exitCode == FailureCode
    ensures r.exitCode == SuccessCode <==> EditPageOpened(editUrl, o)
    ensures r.exitCode == FailureCode <==> r.outcome == NotOpened
    ensures r.outcome.Rewritten? ==>
      exists i: nat :: IsLastMatch(o.cards, i)
        && r.outcome.copies == GroupTitle.ProcessGroupInfo(o.cards[i].title, o.cards[i].adminInfo)
  {
    if !o.setupOk then WorkerReport(FailureCode, NotOpened)
    else if Blank(editUrl) then WorkerReport(FailureCode, NotOpened)
    else match o.landedUrl
      case None => WorkerReport(FailureCode, NotOpened)
      case Some(url) =>
        if Contains(url, "login") then WorkerReport(FailureCode, NotOpened)
        else WorkerReport(SuccessCode, ProcessEditPage(o))
  }

  /** A task whose edit link is empty or only whitespace always fails. */
  lemma BlankEditLinkFails(editUrl: string, o: WorkerObs)
    requires AllWhitespace(editUrl)
    ensures WorkerMain(editUrl, o) == WorkerReport(FailureCode, NotOpened)
  {
  }

  /** A worker that found no card with "HK" or "DD" still exits with 0. */
  lemma NoMatchStillSucceeds(editUrl: string, o: WorkerObs)
    requires EditPageOpened(editUrl, o)
    requires |o.cards| > 0 && forall i :: 0 <= i < |o.cards| ==> !IsMatch(o.cards[i])
    ensures WorkerMain(editUrl, o) == WorkerReport(SuccessCode, NotApplicable)
  {
  }
}
